=== FILE: README.md ===
# Jumping-block game: a Dafny model of its core

This project models the decision logic of a browser game in which a square
character charges a jump, flies under gravity and must land on a stream of
platforms scrolling leftwards. It models three parts of the code.

- **The per-frame state machine** (`script.js`):
  - charging and launch;
  - the integration step with its bounded flight recorder;
  - the ordered failure detector with its 1000 ms fall timer;
  - collision, landing, attachment to a moving platform, combo and score;
  - platform generation, the five-platform start and the coverage loop;
  - the closed-form landing preview and its quality bands;
  - the leaderboard merge.
- **The scoring back end** (`precision-judgment-system.js`):
  - anti-cheat rules, risk level and the per-player behaviour baseline;
  - the four-dimension judgment of a landing;
  - the dual-backup key-value store;
  - language switching and translation fallback;
  - the bounded event log;
  - the pipeline that routes a finished game's score to acceptance, monitoring
    or rejection.
- **The code-quality score** of `static-code-analysis.js`: severity weights,
  category scores, level bands, grouping and recommendations.

The model is functional throughout. The game state is an immutable `Game`
record, and platforms are a `seq`. The platform the character stands on is
held by its id, not by reference. Positions and speeds are `real`; scores,
counters and millisecond clocks are `int`. Every `Math.random()` draw, every
`Date.now()` reading and every `sin`, `cos`, `sqrt` or `atan2` is a parameter.
Methods with loop invariants are used where the source loops: the landing
scan, the continuity loop, the forecast scan and the smoothness average.

Modules, one per file: `Common` (option type and small arithmetic helpers),
`Entities`, `Launch`, `Physics`, `Failure`, `Collision`, `Generation`,
`Prediction`, `Ranking`, `Frame`, `AntiCheat`, `Judgment`, `Storage`,
`Language`, `Logger`, `Integration`, `Quality`.

### How the model reads some of the source's behaviour

- The landing test asks for a strict box overlap and for the bottom edge to be
  within ±25 of the platform top. The strict overlap already puts the bottom
  edge below the top, so only (top, top + 25] can land.
- Landing appends one more flight sample after the 50-sample cap has been
  reached. It also records a landing velocity of (0, 0), because the velocity
  has already been zeroed.
- The degenerate-velocity guard runs after the failure detector, even in a
  frame in which the detector has just ended the run.
- A fall timer holding 0 counts as unset, because the source tests it for
  truthiness.
- A moving platform's position is recomputed from its fixed `originalX` every
  frame, so moving platforms never scroll with the world.
- The landing preview measures its vertical window from the character's top
  edge. A platform level with the one the character stands on is therefore
  never forecast.
- `makeJudgment` accepts per-level thresholds and ignores them.
- `saveToRanking` appends a row without looking for the player's existing one.
  `updateRanking` merges. Both use the `jumpGameRanking` key of local storage,
  but the scoring system writes it through the dual store, which wraps the
  list in a timestamped record, while the game reads and writes the bare list.
  The model keeps the two boards as separate values (see "Left out").
- `setLanguage` is defined twice in its class. The later definition is the one
  in effect, and it behaves the same for the model.
- Nothing in the core writes the `games_played` counter, so every player is
  judged at skill level 1.

## Model

| member | source | states |
|---|---|---|
| Launch.StartCharging | script.js:377-383 | charging starts only while playing, standing and not already charging, and the first charge frame then leaves power at 2; otherwise nothing changes |
| Launch.ChargePower | script.js:388-391 | each charge frame adds 2 to the power and saturates at 150, so power stays within [0, 150]; nothing else changes, and nothing at all when not charging |
| Launch.HeldPower | script.js:377-399 | holding the charge for n frames after it starts gives power min(2(n+1), 150), by induction over the frames |
| Launch.Jump | script.js:686-717 | release happens only while charging and standing; vx is (50 + 200·min(power,150)/100)/20 plus the attached platform's speed, vy is −15·sin(πr), power and attachment are cleared, the flight recorder is emptied and the reaction time is measured from the last landing |
| Launch.JumpIdempotent | script.js:686-687 | a second release right after the first changes nothing |
| Launch.LaunchVxRange | script.js:690-710 | the base horizontal speed grows with power and lies in [2.5, 17.5] |
| Launch.LaunchAtSeventyFive | script.js:690-713 | a charge of 75 launches at vx = 10 and vy = −15·sin(0.75π) |
| Entities.EndRun | script.js:1167-1168 | ending a run stops play and records the reason once more, leaving the character, score, platforms, combo and telemetry untouched |
| Physics.Integrate | script.js:750-753 | one step moves x by vx·gameSpeed and y by vy, then adds gravity 0.8 to vy, and touches nothing else |
| Physics.Record | script.js:756-764 | the flight recorder appends a sample only while it holds fewer than 50 |
| Physics.UpdatePhysics | script.js:746-774 | only a flying character moves; the step appends at most one sample and never grows the recorder past 50; at most one failure is reported; a still character above y = 400 is given vy = 0.1, so no frame ends in that state |
| Physics.FreeFlightVelocity | script.js:746-774 | when no failure fires, the new character is the integrated one, nudged only in the degenerate case, and the run continues |
| Physics.HorizontalEscapeStopsFlight | script.js:746-791 | leaving the horizontal band ends the run, stops the flight and zeroes vx; vy becomes 0 or 0.1 depending on the later guard |
| Failure.FirstFiring | script.js:776-861 | reference reading of the detector: the first guard in the fixed order that fires, with every earlier guard silent |
| Failure.CheckFailure | script.js:776-861 | the fall timer is left alone when an earlier guard fires, and otherwise starts on the fall condition and resets when it is absent |
| Failure.CheckFailureFirstGuard | script.js:776-861 | the verdict is exactly the first guard, in the fixed order, that fires, and none when no guard fires |
| Failure.ApplyFailure | script.js:776-861 | a failure ends the run and records its reason; a horizontal escape also stops the character; score, platforms and telemetry are untouched |
| Failure.ProlongedFallNeedsTime | script.js:826-840 | the prolonged-fall failure needs a set timer more than 1000 ms old while the fall condition holds |
| Failure.CalmFlightPasses | script.js:776-861 | a character on screen, away from the bottom and moving slowly never fails, and its timer is cleared |
| Collision.LandingCharacterisation | script.js:920-944 | the landing test holds exactly when both sizes are positive, the character falls, the boxes overlap horizontally and the bottom edge lies in (top, top + 25]; the overlap test is `isColliding`, script.js lines 1029-1034 |
| Collision.UpperHalfOfWindowUnreachable | script.js:931-935 | a bottom edge at or above the platform top never lands, despite the ±25 tolerance; the overlap test is `isColliding`, script.js lines 1029-1034 |
| Collision.FindLanding | script.js:920-982 | the scan returns the first platform in array order that passes the landing test, and nothing only when none does |
| Collision.ScoreLanding | script.js:962-974 | a perfect landing raises the combo by one up to 5 and adds 15 times the new combo; any other landing resets the combo to 1 and adds 10; combo stays in [1, 5] and under maxCombo; the perfect-landing step is `perfectLanding`, script.js lines 1036-1055 |
| Collision.LandingAward | script.js:962-974 | a landing is worth between 10 and 75 points, always a multiple of 5, at least 30 when perfect and 75 from combo 4 on; the perfect-landing bonus is in `perfectLanding`, script.js lines 1036-1055 |
| Collision.TrackLanding | script.js:1726-1745 | landing telemetry appends one sample and records the centre distance and the time since the game started |
| Collision.Land | script.js:945-974 | the character is snapped onto the platform top and stopped, attaches with its current offset, and the combo invariant is kept |
| Collision.SyncAttachment | script.js:874-894 | a standing attached character follows its platform to within 2; if it has left the platform it is detached and falls again; nothing else changes |
| Collision.GroundCheck | script.js:901-918 | a standing character above y = 500 that no platform supports is put back into flight and detached |
| Collision.CheckCollisions | script.js:863-993 | the bottom strip ends the run first; otherwise a landing happens on the first qualifying platform after riding and the ground check; a rising character never lands; without a landing the score, combo and run state are unchanged |
| Collision.RideAndLand | script.js:874-982 | after riding and the ground check, a falling character lands on the first qualifying platform with the combo invariant kept and at least 10 points more; a rising one never lands; without a landing score, combo, run state and telemetry are unchanged |
| Collision.LandFirst | script.js:920-974 | the landing, if any, is on the first platform in array order that passes the landing test, and it is worth at least 10 points |
| Collision.SettleKeeps | script.js:874-918 | riding and the ground check change only the character and its attachment, never the score, platforms or run state |
| Generation.NextY | script.js:310-325 | the next height is a bounded random walk clamped to [200, 400] and then to [250, 350] |
| Generation.NewPlatform | script.js:299-345 | every generated platform is 20 high, 60 to 100 wide, at x ≥ 0.5·W and y in [250, 350]; it starts at least 100 past its predecessor's right edge and no further than 180 past it or 0.5·W, whichever is larger; the first platform of an empty list sits at y = 300; speed is in [−1, 1] and zero whenever the movement draw is at most 0.7 |
| Generation.Generate | script.js:299-375 | generation appends exactly one platform and remembers its x |
| Generation.InitialPlatforms | script.js:235-297 | the start has five platforms: a 250-wide first one at (80, 320) with the character standing on it, a second 120 further on, then three generated ones |
| Generation.DropOffscreen | script.js:1089-1092 | the filter never lengthens the list and leaves a list of visible platforms as it is |
| Generation.DropOffscreenMembers | script.js:1089-1092 | the filter keeps exactly the platforms whose right edge is past −100 |
| Generation.DropOffscreenSingle | script.js:1089-1092 | a single platform is kept exactly when it is visible |
| Generation.DropOffscreenConcat | script.js:1089-1092 | filtering a concatenation is the concatenation of the filtered parts, so kept platforms keep their order and multiplicity |
| Generation.RightmostAppend | script.js:1116-1130 | adding a platform never lowers the rightmost edge and covers the new platform's edge |
| Generation.EnsureContinuity | script.js:1112-1138 | the loop ends with at least 4 platforms and either coverage to W + 200 or 8 platforms; it only appends well-formed platforms, each 100 past the previous, and appends nothing to a set of 8 |
| Generation.Move | script.js:1060-1074 | a still platform scrolls left by the step; a moving one jumps to its oscillation point when that lies within (−width, W + 200) |
| Generation.MoveAll | script.js:1060-1074 | every platform is moved by the same rule, and the count is kept |
| Generation.MaxRightCovers | script.js:1116 | the rightmost edge is at least every platform's right edge |
| Generation.MovingPlatformIgnoresScroll | script.js:1062-1073 | a moving platform's position depends only on the latest oscillation value, never on the scroll |
| Generation.UpdatePlatforms | script.js:1058-1110 | after a frame the moved platforms that stay visible come first in their old order, new ones are well-formed, at least 4 exist with the coverage target met, and the speeds rise by 0.1 and 0.05 exactly when the score is a positive multiple of 100 |
| Prediction.PredictLanding | script.js:539-571 | the 45° preview lands at the height it started from, after time −2·vy/0.8 and at a distance of vx times that time |
| Prediction.DistanceGrowsWithPower | script.js:539-571 | with a forward launch that points up the screen (positive cosine, negative sine, since screen y grows downward) the predicted distance is positive and grows with power |
| Prediction.LandingQuality | script.js:608-632 | the grade follows the accuracy bands 0.9/0.7/0.5/0.3; the score is the grade's points less twice the vertical speed, and never negative |
| Prediction.QualityMonotone | script.js:608-632 | a more accurate landing never scores less |
| Prediction.PredictCollision | script.js:573-606 | the forecast hits exactly when some platform's window contains the landing point, and then names the first nearest such platform with accuracy in [0, 1] |
| Prediction.LevelPlatformNeverForecast | script.js:558-590 | a platform level with the character's feet is outside the forecast window |
| Ranking.Insert | script.js:1351 | inserting one row keeps every row and adds exactly the new one |
| Ranking.InsertSorted | script.js:1351 | inserting into a sorted board keeps it sorted |
| Ranking.SortDesc | script.js:1351 | sorting yields a permutation of the rows, ordered by non-increasing score |
| Ranking.SortDescOfSorted | script.js:1351 | sorting an already sorted board changes nothing |
| Ranking.SortKeepsDistinct | script.js:1351 | sorting keeps one row per name |
| Ranking.InsertKeepsDistinct | script.js:1351 | inserting a row with a new name keeps one row per name |
| Ranking.Top | script.js:1354 | the cut keeps the first min(n, 50) rows, and a board of 50 or fewer rows is kept whole |
| Ranking.TopKeepsBest | script.js:1351-1354 | cutting a sorted board keeps it sorted, drops no row that outscores a kept one, and keeps one row per name |
| Ranking.SortTopKeepsBest | script.js:1351-1354 | sort-then-cut yields a sorted sub-multiset of the rows in which every dropped row scores no more than every kept one |
| Ranking.PlayerName | script.js:1327 | the ranking name is the stored name when it is non-empty and the anonymous default otherwise, never empty |
| Ranking.FindName | script.js:1330-1331 | the lookup finds the first row with the name, or reports that there is none |
| Ranking.Merge | script.js:1330-1348 | the player's first row keeps the better score, and its date changes only on a strict improvement; an unknown player is appended |
| Ranking.MergeKeepsDistinct | script.js:1330-1348 | merging into a board with one row per name keeps that property |
| Ranking.UpdateRanking | script.js:1326-1356 | the board is sorted, holds min(n, 50) rows drawn from the merged list, and every dropped row scores no more than every kept one |
| Ranking.UpdateKeepsDistinct | script.js:1326-1356 | a board with one row per name keeps that property |
| Ranking.NoImprovementNoChange | script.js:1326-1356 | a known player who does not improve leaves a sorted board unchanged |
| Ranking.BestScoreListed | script.js:1326-1356 | with room on the board, the player is listed with at least the new score |
| Ranking.SaveToRanking | precision-judgment-system.js:976-996 | the pipeline's save appends a row, then sorts and cuts to 50: a sorted board of min(n + 1, 50) rows from the old rows and the new one, dropping no row that outscores a kept one |
| Ranking.SaveToRankingDuplicates | precision-judgment-system.js:976-996 | with room on the board, saving again under a name already listed with another date leaves two rows with that name |
| Ranking.BeatPercentage | script.js:1264-1265 | the beaten share is in [0, 100]; 100 for an empty board or when nobody scores higher; 0 when everybody does; otherwise within half a point of 100 times the share of rows not scoring higher (rounded half up) |
| Ranking.CountAbove | script.js:1264-1264 | the count is 0 exactly when nobody scores higher and the whole board exactly when everybody does |
| Ranking.CountAboveCountsRows | script.js:1264-1264 | the count equals the number of positions whose score is strictly higher |
| Frame.StartGame | script.js:175-207 | a new run has score 0, combo 1, five platforms, a still character and the bottom strip; jump telemetry, the fall timer and attachment are carried over |
| Frame.StartsOnGround | script.js:175-207 | a new run starts with the character supported by the first platform, so the ground check leaves it standing; the first tick is script.js lines 264-266 |
| Frame.Tick | script.js:730-744 | a stopped run is left alone; a frame keeps at least 4 platforms and the coverage target, keeps the combo invariant, scores at least 10 for a landing and nothing otherwise, records at most two endings, and keeps the flight recorder within 50 samples when nothing lands |
| AntiCheat.Violations | precision-judgment-system.js:25-73 | each of the four rules contributes a violation exactly when it fires, with its fixed severity and in rule order, so the list is non-empty exactly when some rule fires |
| AntiCheat.ViolationsSound | precision-judgment-system.js:25-73 | every violation produced names a checked rule that fired, with that rule's severity and the current time |
| AntiCheat.ViolationsComplete | precision-judgment-system.js:25-73 | every checked rule that fires produces a violation |
| AntiCheat.ViolationsOrdered | precision-judgment-system.js:25-73 | rules checked in rule order give violations in rule order |
| AntiCheat.ViolationsOfEveryRule | precision-judgment-system.js:25-73 | checking all four rules in order reports exactly the rules that fire, stamped and in order, and reports something exactly when some rule fires |
| AntiCheat.RuleOrderListsAll | precision-judgment-system.js:25-73 | the four checks run in one fixed order that covers every rule |
| AntiCheat.RiskLevel | precision-judgment-system.js:82-97 | the risk is low exactly when there are no violations; critical exactly for two or more highs, or a high with two or more mediums; high exactly for one high with at most one medium, or no high and three or more mediums; medium exactly for no high and one or two mediums |
| AntiCheat.CountSeverity | precision-judgment-system.js:85-86 | the count of one severity is 0 exactly when none has it and the whole list exactly when all have it |
| AntiCheat.SeveritiesCover | precision-judgment-system.js:82-97 | every violation is counted as exactly one of high or medium |
| AntiCheat.RiskExamples | precision-judgment-system.js:82-97 | two highs give critical, a high and a medium give high, and two mediums give medium |
| AntiCheat.RiskMonotone | precision-judgment-system.js:82-97 | one more violation never lowers the risk |
| AntiCheat.Recent | precision-judgment-system.js:116-126 | the clean-up never lengthens a player's list |
| AntiCheat.RecentMembers | precision-judgment-system.js:116-126 | the clean-up keeps exactly the records newer than the cut-off |
| AntiCheat.RecentSingle | precision-judgment-system.js:116-126 | a single record is kept exactly when it is newer than the cut-off |
| AntiCheat.RecentConcat | precision-judgment-system.js:116-126 | cleaning a concatenation is the concatenation of the cleaned parts, so kept records keep their order and multiplicity |
| AntiCheat.RecordSuspicion | precision-judgment-system.js:100-126 | the new record is added, the player's records older than 30 days are dropped, and other players are untouched |
| AntiCheat.DetectCheating | precision-judgment-system.js:25-79 | a submission is flagged exactly when some rule fires; the risk is graded from the violations; only a flagged submission is logged |
| AntiCheat.CleanIsLowRisk | precision-judgment-system.js:25-79 | a submission inside every threshold is not flagged and is low risk |
| AntiCheat.UpdateBaseline | precision-judgment-system.js:129-150 | one update counts one more game and keeps running means of score and reaction time; the spread is the square root of the blended variance, which adds the squared distance of the new score from the new mean |
| AntiCheat.Blend | precision-judgment-system.js:144-145 | the blended variance times the new count is the old variance times the old count plus the squared distance |
| AntiCheat.RunningMean | precision-judgment-system.js:140-141 | the updated average times the new count equals the old average times the old count plus the new value |
| AntiCheat.UpdateBehaviorBaseline | precision-judgment-system.js:129-150 | the player's record becomes one update of the old record, or of zeros for a missing player; no other record changes |
| AntiCheat.BaselineIsMean | precision-judgment-system.js:129-150 | after n games the baseline counts n and its average score is the arithmetic mean of the n scores, by induction |
| AntiCheat.BaselineTracksMean | precision-judgment-system.js:129-150 | folding the games into a baseline counts them and keeps the average equal to the running mean of their scores |
| AntiCheat.MeanTimesCount | precision-judgment-system.js:140 | the running mean of n scores times n is their sum |
| AntiCheat.MeanIsAverage | precision-judgment-system.js:140 | the running mean of a non-empty list of scores is their sum divided by their count |
| AntiCheat.ValidateScore | precision-judgment-system.js:153-170 | with fewer than 5 games the score passes for insufficient data; otherwise it fails exactly when it exceeds the average by more than three times the spread |
| AntiCheat.AverageScorePasses | precision-judgment-system.js:153-170 | a score no higher than the average always passes |
| Judgment.PositionAccuracy | precision-judgment-system.js:232-243 | a landing on target scores 1, one 50 or more away scores 0, and in between it falls off linearly |
| Judgment.FalloffMonotone | precision-judgment-system.js:232-256 | a larger miss never scores better |
| Judgment.TimingPrecision | precision-judgment-system.js:246-256 | perfect timing scores 1, a miss of 200 ms or more scores 0, and in between it falls off linearly |
| Judgment.WindowSum | precision-judgment-system.js:259-273 | the windows' sum is bounded by the number of windows |
| Judgment.SumWindows | precision-judgment-system.js:259-273 | the loop over the flight's windows adds up every window score |
| Judgment.Smoothness | precision-judgment-system.js:259-273 | fewer than three samples give 0.5; otherwise the result is the mean window score, always in [0, 1] |
| Judgment.LandingStability | precision-judgment-system.js:276-288 | stability is in [0, 1], 1 for a still, level landing, and at most 0.7 from a 45° tilt on |
| Judgment.Composite | precision-judgment-system.js:180-210 | the weighted composite lies in [0, 1], and when all four dimensions agree it equals their common value, since the weights sum to 1 |
| Judgment.SkillLevel | precision-judgment-system.js:305 | a missing or zero level counts as level 1 |
| Judgment.DynamicThresholds | precision-judgment-system.js:304-317 | level 1 keeps the base ranges; the ranges keep the 1 : 2 : 3 : 4 proportion, the perfect range loses 0.25 per level from 1 to 5, level 5 and above sit at 20% off, and the ranges stay strictly increasing |
| Judgment.MakeJudgment | precision-judgment-system.js:320-326 | the label is decided by the bands 0.95/0.9/0.8/0.7 alone, each band an if-and-only-if |
| Judgment.ThresholdsIgnored | precision-judgment-system.js:320-326 | the label is the same at every skill level |
| Judgment.JudgmentMonotone | precision-judgment-system.js:320-326 | a higher composite never gets a lower label |
| Judgment.Confidence | precision-judgment-system.js:329-342 | confidence is in [0.1, 1]: 1 minus the distance from the label's centre, floored at 0.1 once that distance reaches 0.9, and 1 exactly on the centre |
| Judgment.ConfidenceFloor | precision-judgment-system.js:320-342 | a composite in [0, 1] judged by its own label is always more than 60% confident |
| Judgment.Judge | precision-judgment-system.js:191-229 | the judgment combines the four dimensions with the fixed weights, labels the composite by the fixed bands and attaches a confidence in [0.1, 1]: position and timing by their linear fall-offs, smoothness 0.5 below three samples and otherwise the mean window score, stability from the landing, confidence from the distance to the label's centre (all of `Judgment.JudgmentOf`) |
| Storage.SetItem | precision-judgment-system.js:394-434 | a write reports success exactly when at least one store took it; a failed store is left unchanged, and every other key keeps its presence and its value in both stores |
| Storage.Resolve | precision-judgment-system.js:479-498 | no record gives nothing and no repair; one record wins and is repaired into the other store; of two, the newer wins, the primary on a tie, with a repair exactly when the timestamps differ |
| Storage.Read | precision-judgment-system.js:440-465 | a failed or missing read sees nothing |
| Storage.GetItem | precision-judgment-system.js:437-508 | the read returns the resolved value, and the repair writes the primary first and skips the backup when that write fails |
| Storage.ReadYourWrite | precision-judgment-system.js:394-476 | a successful write newer than what is stored is what the next read returns |
| Storage.HealthyReadConverges | precision-judgment-system.js:437-508 | when at least one store holds the key and the two copies do not share a timestamp, a healthy read leaves both stores holding the returned record |
| Storage.SameTimestampNeverRepaired | precision-judgment-system.js:492-494 | two records with the same timestamp are never repaired, even when their values differ |
| Storage.BackupOnlyWriteCanBeShadowed | precision-judgment-system.js:394-498 | a write that only reached the backup loses to a primary record from the same millisecond |
| Language.SetLanguage | precision-judgment-system.js:807-817 | a switch succeeds exactly for the four supported codes and persists the choice; otherwise nothing changes; this is the later of the two definitions, the earlier being lines 782-789 |
| Language.SetLanguageKeepsSupported | precision-judgment-system.js:807-817 | the current language stays a supported one |
| Language.Translate | precision-judgment-system.js:773-779 | the lookup prefers the current language's text, then the zh-CN text, then a non-empty fallback, then the key; with neither table's text it is exactly the non-empty fallback or else the key |
| Language.TranslateNonEmpty | precision-judgment-system.js:773-779 | a non-empty key never translates to the empty text |
| Language.UnknownKeyEchoed | precision-judgment-system.js:773-779 | a key no table knows comes back as the fallback or as the key itself |
| Logger.SessionId | precision-judgment-system.js:1313-1318 | the session id is minted once and then kept |
| Logger.LogEvent | precision-judgment-system.js:1291-1306 | an event is appended with the session id, and the oldest entry is dropped once the log would exceed 1000 |
| Logger.LogEventKeepsSession | precision-judgment-system.js:1291-1318 | every entry of a log carries the same session id |
| Logger.RecentLogsAsWritten | precision-judgment-system.js:1321-1323 | the recent-logs read as written: the last `count` entries for a positive count, the log minus its first −count entries otherwise |
| Logger.RecentZeroReturnsEverything | precision-judgment-system.js:1321-1323 | asking for zero entries returns the whole log |
| Logger.RecentLogs | precision-judgment-system.js:1321-1323 | the corrected read returns the last max(count, 0) entries |
| Logger.RecentLogsAgreeOnPositive | precision-judgment-system.js:1321-1323 | the corrected read agrees with the source for every positive count |
| Integration.PlayerLevel | precision-judgment-system.js:1033-1042 | the skill level is one per ten games played, from 1, with a missing counter read as 0 |
| Integration.FreshPlayerIsLevelOne | precision-judgment-system.js:1033-1042 | a player with no counter is judged at level 1 with the base thresholds; the thresholds are those of lines 304-317 |
| Integration.SecondaryValidation | precision-judgment-system.js:935-951 | the second check passes exactly when the baseline check passes and the risk is not critical |
| Integration.CriticalAlwaysRejected | precision-judgment-system.js:935-951 | a critical risk never passes the second check |
| Integration.SavePersonalBest | precision-judgment-system.js:1015-1030 | the score is stored as the new best exactly when it beats the stored one, read as 0 when absent |
| Integration.PersonalBestIsMaximum | precision-judgment-system.js:1015-1030 | the stored best becomes the larger of the old best and the score |
| Integration.ProcessGameScore | precision-judgment-system.js:863-951 | a submission is accepted exactly when no rule fires, and rejected exactly when one fires and the second check fails; an accepted one is judged on its own attempt, logged as one `score_submitted` event appended to the log, and saved to the board and the personal best; a flagged one is logged as one `suspicious_score_detected` event, carries `performSecondaryValidation`'s own record and saves nothing; the suspicion record is the detector's; the board update is `saveToRanking`, lines 954-983 |
| Integration.AcceptScore | precision-judgment-system.js:872-897 | the accepted path judges the submission's own attempt, appends one `score_submitted` event carrying that judgment and the detection to the log, then saves to the board and the personal best; nothing else in the services changes |
| Integration.LastPlatformPosition | script.js:1509-1516 | the target is the top centre of the newest platform, or the origin when there is none |
| Integration.BaselinesAfterGameAsWritten | script.js:1226-1284 | as written, each finished game adds two games to the player's baseline |
| Integration.ThreeGamesArmValidationAsWritten | script.js:1226-1284 | as written, three games are enough to leave the five-game "insufficient data" state |
| Integration.BaselinesAfterGame | script.js:1226-1231 | corrected: each finished game is folded into the baseline once |
| Integration.GamesCountedOnce | script.js:1226-1231 | corrected: after n games a new player's baseline counts n games and averages their scores |
| Integration.GameOver | script.js:1167-1266 | the score goes through the pipeline: accepted exactly when no rule fires, rejected exactly when one fires and the second check fails, an accepted score judged on the run's last jump, logged as one `score_submitted` event and saved to the services' board and the personal best, which are otherwise untouched; a flagged score logged as one `suspicious_score_detected` event carrying the second check's record; the suspicion record is the detector's and the player id, nickname and game counter are unchanged; the game's board is merged only when the score was not rejected; the baseline counts the game once; the beaten share comes from the pipeline's board when it has rows and from the game's board otherwise |
| Quality.Weight | static-code-analysis.js:317-329 | high weighs 3, medium 2, and any other severity 1 |
| Quality.TotalWeightBounds | static-code-analysis.js:327-330 | the total weight lies between the number of issues and three times it |
| Quality.CategoryWeightZero | static-code-analysis.js:332-335 | a category carries no weight exactly when no issue is filed under it |
| Quality.CategoryWeightBounded | static-code-analysis.js:327-335 | a category's weight never exceeds the total |
| Quality.CategoryScore | static-code-analysis.js:320-341 | a category scores 100 less 5 per unit of weight, within [0, 100]: 100 exactly without issues and 0 from weight 20 on |
| Quality.CalculateQualityScore | static-code-analysis.js:315-355 | the overall score is max(0, 100 − 2·total weight), in [0, 100]; all five categories are scored and four are reported, reliability being the `bug` score |
| Quality.PerfectMeansNoIssues | static-code-analysis.js:351 | the overall score is 100 exactly when there are no issues |
| Quality.MoreIssuesNeverHelp | static-code-analysis.js:327-351 | one more issue never raises the overall score |
| Quality.UnknownCategoryIgnored | static-code-analysis.js:333-335 | an issue in another category, known or not, leaves a category's score alone |
| Quality.QualityLevel | static-code-analysis.js:429-435 | the level follows the bands 90/80/70/60, each an if-and-only-if |
| Quality.LevelMonotone | static-code-analysis.js:429-435 | a higher score never gets a lower level |
| Quality.OfSeverity | static-code-analysis.js:414-424 | the group of one severity is never longer than the list of issues |
| Quality.OfSeverityMembers | static-code-analysis.js:414-424 | the group of one severity holds exactly the reported issues of that severity, and nothing of another severity |
| Quality.OfSeverityConcat | static-code-analysis.js:414-424 | grouping distributes over concatenation, so each group keeps the reported order |
| Quality.GroupBySeverity | static-code-analysis.js:414-424 | an issue is grouped exactly when its severity is high, medium or low |
| Quality.GroupsPartition | static-code-analysis.js:414-424 | with only recognised severities the three groups add up to the whole list |
| Quality.Recommendations | static-code-analysis.js:440-494 | a defect-fixing item, counting the high issues, comes first exactly when one exists; security and performance items appear exactly below 80; the list always ends with the two generic items |
| Quality.Assemble | static-code-analysis.js:440-494 | the list layout: the defect item first exactly when there are high issues, the security and performance items exactly when asked for, each at most once and security before performance, the two generic items last |
| Quality.SecurityThreshold | static-code-analysis.js:456-464 | hardening is recommended exactly when the security issues weigh more than 4; the weights are those of lines 320-341 |

## Left out

- Rendering, the DOM, sound, sharing, alerts, modals, skins, the trajectory-dot
  cache and the on-screen statistics: these are display only and do not
  affect game state.
- `requestAnimationFrame`, `setTimeout` and the one-second artificial delay of
  the secondary validation: scheduling is flattened. One call of `Tick` is one
  frame, and one call of `ChargePower` is one charge frame.
- `localStorage`, `sessionStorage`, `JSON.parse`/`JSON.stringify`, the storage
  health probe, `removeItem` and `clear`: the two stores are maps whose writes
  may fail, and `Storage.Read` stands for a read that may throw. Stored
  values are strings; the `version: 1` stamp is constant and is dropped.
- `Integration.ProcessGameScore`: the leaderboard, personal best, nickname and
  games-played counter are plain values, not strings kept in the dual store.
  The storage-health field of the result is not returned.
- `Integration.GameOver`: it counts the finished game into the baseline once,
  the corrected behaviour; the source folds it in twice (see "Findings" and
  `Integration.BaselinesAfterGameAsWritten`).
- `Integration.GameOver`: the game's leaderboard and player name are separate
  values from the scoring system's. In the source both share the
  `jumpGameRanking` and `jumpGamePlayerName` keys of local storage, and the
  scoring system stores a timestamped record there. After it has saved a
  score, the game's `getRankingData` returns that record instead of a list,
  so `updateRanking` fails at `findIndex` and `gameOver` stops before either
  baseline update. The model does not reproduce this collision.
- `Integration.GameOver`: it does not model the fallback result used when the
  scoring system throws. The pipeline cannot throw in the model.
- `Integration.GameOver`: it does not model the `result.ranking` branch of the
  percentage. The pipeline's result never carries that field, so the branch is
  never taken.
- The high-score and game-count counters, `saveGameData` and the first-game
  nickname modal: these are display and persistence only.
- `updateRanking`'s closing call to `setPlayerNickname`: it re-stores the name
  and logs an event, and changes no ranking state.
- `checkFallingThroughPlatforms`: its result is discarded by its only caller,
  so it has no effect.
- Language detection from the URL, the stored preference and the browser:
  this is environment sniffing. The translation tables' contents are data.
  `getSupportedLanguages`, `getCurrentLanguage` and `get` are not modelled.
- The session id's random text and the player id's generation: both are
  parameters (`minted`, `Services.playerId`).
- The placeholder methods of the integration class, the analyser's
  hard-coded issue lists and report text, `deploy-check.js` and `start.js`:
  they hold no decision logic.
- Physics: IEEE NaN and infinities are not modelled, nor is JavaScript number
  rounding. Positions, speeds and averages are exact reals.
- Launch: `sin(power·π)` is the parameter `sinPi`, and `Date.now()` is `now`.
- Prediction: `cos` and `sin` of the preview's fixed angle are the
  parameters `cosQ` and `sinQ`.
- Judgment: `Math.sqrt` is the parameter `sqrt`. `calculateAcceleration` is
  the parameter `accel`, because the source reads a `time` field that samples
  do not carry, so its value is NaN in practice.
- Generation: the oscillation `sin(t·0.001·speed)` of a moving platform is a
  per-platform parameter `wave`. Whether it comes from the clock is not
  modelled.
- Generation.InitialPlatforms: the two hand-placed start platforms carry no
  speed in the source. The model gives them speed 0 and direction 1. In the
  source their oscillation target is NaN, which the range check rejects, so
  they scroll like still platforms.
- Collision.SyncAttachment: the source keeps a reference to the attached
  platform even after the platform has been filtered off screen. The model
  looks the platform up by id; when it is gone the character is not moved and
  a later launch inherits speed 0.
- Prediction.PredictCollision: it requires every platform to be wider than 0.
  For a zero-width platform the source divides by zero and grades a NaN.
- Ranking.SortDesc: it states order and permutation but not the stability of
  the source's sort among equal scores.
- Ranking.SaveToRanking: dates are millisecond integers, not ISO strings.
- Judgment.Smoothness: it states the mean through `WindowSum`, whose window
  scores each lie in [0, 1].
- Judgment.LandingStability: it states the range and the two extreme cases,
  not the 70/30 blend for every input.

## Findings

| source | as written | input that shows it | evidently intended | confidence | as-written member | corrected member |
|---|---|---|---|---|---|---|
| script.js:1226-1231, 1279-1284 | `gameOver` calls `updateBehaviorBaseline` twice for the same finished game | a finished game that reaches both baseline calls (for example a rejected score, which skips the leaderboard update): a new player's baseline reads 6 games after 3 games, so the 5-game "insufficient data" guard of `validateScoreReasonableness` stops protecting new players after their third game | the game is counted once | not executed; high | Integration.BaselinesAfterGameAsWritten, Integration.ThreeGamesArmValidationAsWritten | Integration.BaselinesAfterGame, Integration.GamesCountedOnce (used by Integration.GameOver) |
| precision-judgment-system.js:1321-1323 | `getRecentLogs(count)` is `logs.slice(-count)` | `count = 0`: `slice(-0)` is `slice(0)`, which returns the whole log rather than no entries | the last max(count, 0) entries | not executed; medium | Logger.RecentLogsAsWritten, Logger.RecentZeroReturnsEverything | Logger.RecentLogs, Logger.RecentLogsAgreeOnPositive |

=== FILE: anticheat.dfy ===
/** The anti-cheat checks run on every submitted score: four independent rule
    checks, a risk level aggregated from their severities, a 30-day record of
    suspicious submissions, and a per-player behaviour baseline used to judge
    whether a score is plausible. */
module AntiCheat {
  import opened Common

  const ImpossibleScore: int := 10000
  const PerfectStreakThreshold: int := 50
  /** Reaction times below this many milliseconds look automated. */
  const SpeedHackThreshold: int := 200
  const PositionJumpThreshold: real := 100.0
  /** Suspicious records older than 30 days are dropped. */
  const RetentionMs: int := 30 * 24 * 60 * 60 * 1000
  /** Games a baseline needs before it is used to reject scores. */
  const MinBaselineGames: nat := 5

  datatype Severity = HighSeverity | MediumSeverity

  datatype Rule = ImpossibleScoreRule | SpeedHackRule | PositionTeleportRule | PerfectStreakRule

  /** The rules in the order they are evaluated and reported. */
  const RuleOrder: seq<Rule> := [ImpossibleScoreRule, SpeedHackRule, PositionTeleportRule, PerfectStreakRule]

  datatype Violation = Violation(rule: Rule, severity: Severity, timestamp: int)

  /** The telemetry the rules look at. */
  datatype Evidence = Evidence(reactionTime: int, positionDelta: real, perfectStreak: int)

  function SeverityOf(rule: Rule): Severity {
    match rule
    case ImpossibleScoreRule => HighSeverity
    case SpeedHackRule => MediumSeverity
    case PositionTeleportRule => HighSeverity
    case PerfectStreakRule => MediumSeverity
  }

  /** Whether a rule fires on its own. */
  predicate Triggered(rule: Rule, score: int, ev: Evidence) {
    match rule
    case ImpossibleScoreRule => score > ImpossibleScore
    case SpeedHackRule => ev.reactionTime < SpeedHackThreshold
    case PositionTeleportRule => ev.positionDelta > PositionJumpThreshold
    case PerfectStreakRule => ev.perfectStreak > PerfectStreakThreshold
  }

  function Position(rule: Rule): (k: nat)
    ensures k < |RuleOrder| && RuleOrder[k] == rule
  {
    match rule
    case ImpossibleScoreRule => 0
    case SpeedHackRule => 1
    case PositionTeleportRule => 2
    case PerfectStreakRule => 3
  }

  function RulesOf(vs: seq<Violation>): set<Rule> {
    set i | 0 <= i < |vs| :: vs[i].rule
  }

  function Check(rule: Rule, score: int, ev: Evidence, now: int): seq<Violation> {
    if Triggered(rule, score, ev) then [Violation(rule, SeverityOf(rule), now)] else []
  }

  /** Rules listed in evaluation order. */
  ghost predicate InOrder(rules: seq<Rule>) {
    forall i, j :: 0 <= i < j < |rules| ==> Position(rules[i]) < Position(rules[j])
  }

  /** The violations of `rules`: each rule that fires contributes one, in the
      order the rules are listed. */
  function ViolationsOf(rules: seq<Rule>, score: int, ev: Evidence, now: int): seq<Violation> {
    if |rules| == 0 then [] else Check(rules[0], score, ev, now) + ViolationsOf(rules[1..], score, ev, now)
  }

  /** Every violation names one of `rules` that fired, stamped as the rule demands. */
  ghost predicate Sound(vs: seq<Violation>, rules: seq<Rule>, score: int, ev: Evidence, now: int) {
    forall i :: 0 <= i < |vs| ==>
      vs[i].rule in rules && Triggered(vs[i].rule, score, ev)
      && vs[i].severity == SeverityOf(vs[i].rule) && vs[i].timestamp == now
  }

  /** Every violation names a listed rule that fired, stamped as the rule demands. */
  lemma {:induction false} ViolationsSound(rules: seq<Rule>, score: int, ev: Evidence, now: int)
    ensures Sound(ViolationsOf(rules, score, ev, now), rules, score, ev, now)
  {
    if |rules| > 0 {
      ViolationsSound(rules[1..], score, ev, now);
      var head := Check(rules[0], score, ev, now);
      var rest := ViolationsOf(rules[1..], score, ev, now);
      var vs := head + rest;
      forall i | 0 <= i < |vs|
        ensures vs[i].rule in rules && Triggered(vs[i].rule, score, ev)
        ensures vs[i].severity == SeverityOf(vs[i].rule) && vs[i].timestamp == now
      {
        if i < |head| {
          assert Triggered(rules[0], score, ev);
          assert vs[i] == Violation(rules[0], SeverityOf(rules[0]), now);
        } else {
          var k := i - |head|;
          assert vs[i] == rest[k];
          assert rest[k].rule in rules[1..] && Triggered(rest[k].rule, score, ev);
        }
      }
    }
  }

  /** Every listed rule that fires has a violation. */
  lemma {:induction false} ViolationsComplete(rules: seq<Rule>, score: int, ev: Evidence, now: int)
    ensures forall rule :: rule in rules && Triggered(rule, score, ev) ==> rule in RulesOf(ViolationsOf(rules, score, ev, now))
  {
    if |rules| > 0 {
      ViolationsComplete(rules[1..], score, ev, now);
      var head := Check(rules[0], score, ev, now);
      var rest := ViolationsOf(rules[1..], score, ev, now);
      var vs := head + rest;
      forall rule | rule in rules && Triggered(rule, score, ev)
        ensures rule in RulesOf(vs)
      {
        if rule == rules[0] {
          assert vs[0].rule == rule;
        } else {
          assert rule in rules[1..];
          var k :| 0 <= k < |rest| && rest[k].rule == rule;
          assert vs[|head| + k] == rest[k];
        }
      }
    }
  }

  /** Violations in evaluation order. */
  ghost predicate Ordered(vs: seq<Violation>) {
    forall i, j :: 0 <= i < j < |vs| ==> Position(vs[i].rule) < Position(vs[j].rule)
  }

  /** Rules listed in evaluation order give violations in evaluation order. */
  lemma {:induction false} ViolationsOrdered(rules: seq<Rule>, score: int, ev: Evidence, now: int)
    requires InOrder(rules)
    ensures Ordered(ViolationsOf(rules, score, ev, now))
  {
    if |rules| > 0 {
      var tail := rules[1..];
      assert InOrder(tail) by {
        forall i, j | 0 <= i < j < |tail|
          ensures Position(tail[i]) < Position(tail[j])
        {
          assert tail[i] == rules[i + 1] && tail[j] == rules[j + 1];
        }
      }
      ViolationsOrdered(tail, score, ev, now);
      ViolationsSound(tail, score, ev, now);
      var head := Check(rules[0], score, ev, now);
      var rest := ViolationsOf(tail, score, ev, now);
      var vs := head + rest;
      forall i, j | 0 <= i < j < |vs|
        ensures Position(vs[i].rule) < Position(vs[j].rule)
      {
        var m := j - |head|;
        assert vs[j] == rest[m];
        assert Sound(rest, tail, score, ev, now);
        assert rest[m].rule in tail;
        if i < |head| {
          assert vs[i].rule == rules[0];
          var k :| 0 <= k < |tail| && tail[k] == vs[j].rule;
          assert rules[k + 1] == vs[j].rule;
          assert Position(rules[0]) < Position(rules[k + 1]);
        } else {
          var n := i - |head|;
          assert vs[i] == rest[n];
          assert Ordered(rest);
          assert Position(rest[n].rule) < Position(rest[m].rule);
        }
      }
    }
  }

  /** The evaluation order lists every rule, each once, in position order. */
  lemma RuleOrderListsAll()
    ensures forall rule :: rule in RuleOrder
    ensures InOrder(RuleOrder)
  {
    forall rule ensures rule in RuleOrder {
      assert RuleOrder[Position(rule)] == rule;
    }
  }

  /** Checking every rule, in position order, reports exactly the rules that
      fire, each stamped, in position order. */
  lemma ViolationsOfEveryRule(rules: seq<Rule>, score: int, ev: Evidence, now: int)
    requires forall rule :: rule in rules
    requires InOrder(rules)
    ensures var vs := ViolationsOf(rules, score, ev, now);
      && (forall rule :: rule in RulesOf(vs) <==> Triggered(rule, score, ev))
      && (forall i :: 0 <= i < |vs| ==> vs[i].severity == SeverityOf(vs[i].rule) && vs[i].timestamp == now)
      && (forall i, j :: 0 <= i < j < |vs| ==> Position(vs[i].rule) < Position(vs[j].rule))
      && (|vs| > 0 <==> exists rule :: Triggered(rule, score, ev))
  {
    var vs := ViolationsOf(rules, score, ev, now);
    ViolationsSound(rules, score, ev, now);
    ViolationsComplete(rules, score, ev, now);
    ViolationsOrdered(rules, score, ev, now);
    forall rule | rule in RulesOf(vs)
      ensures Triggered(rule, score, ev)
    {
      var i :| 0 <= i < |vs| && vs[i].rule == rule;
    }
    if |vs| > 0 {
      assert vs[0].rule in RulesOf(vs);
    }
  }

  /** The rule checks of `detectCheating`: every rule is evaluated and each that
      fires contributes one violation, in rule order. */
  function Violations(score: int, ev: Evidence, now: int): (vs: seq<Violation>)
    ensures forall rule :: rule in RulesOf(vs) <==> Triggered(rule, score, ev)
    ensures forall i :: 0 <= i < |vs| ==>
      vs[i].severity == SeverityOf(vs[i].rule) && vs[i].timestamp == now
    ensures forall i, j :: 0 <= i < j < |vs| ==> Position(vs[i].rule) < Position(vs[j].rule)
    ensures |vs| > 0 <==> exists rule :: Triggered(rule, score, ev)
  {
    RuleOrderListsAll();
    ViolationsOfEveryRule(RuleOrder, score, ev, now);
    ViolationsOf(RuleOrder, score, ev, now)
  }

  datatype Risk = Low | Medium | High | Critical

  function RiskRank(r: Risk): nat {
    match r
    case Low => 0
    case Medium => 1
    case High => 2
    case Critical => 3
  }

  /** The number of violations of severity `s`. */
  function CountSeverity(vs: seq<Violation>, s: Severity): (n: nat)
    ensures n <= |vs|
    ensures n == 0 <==> forall i :: 0 <= i < |vs| ==> vs[i].severity != s
    ensures n == |vs| <==> forall i :: 0 <= i < |vs| ==> vs[i].severity == s
  {
    if |vs| == 0 then 0
    else
      var init := vs[..|vs| - 1];
      assert forall i :: 0 <= i < |init| ==> init[i] == vs[i];
      CountSeverity(init, s) + (if vs[|vs| - 1].severity == s then 1 else 0)
  }

  /** `calculateRiskLevel`: graded from the numbers of high (h) and medium (m)
      violations. */
  function RiskLevel(vs: seq<Violation>): (r: Risk)
    ensures r == Low <==> |vs| == 0
    ensures var h, m := CountSeverity(vs, HighSeverity), CountSeverity(vs, MediumSeverity);
      && (r == Critical <==> h >= 2 || (h >= 1 && m >= 2))
      && (r == High <==> (h == 1 && m <= 1) || (h == 0 && m >= 3))
      && (r == Medium <==> h == 0 && 1 <= m <= 2)
  {
    SeveritiesCover(vs);
    if |vs| == 0 then Low
    else
      var h := CountSeverity(vs, HighSeverity);
      var m := CountSeverity(vs, MediumSeverity);
      if h >= 2 || (h >= 1 && m >= 2) then Critical
      else if h >= 1 || m >= 3 then High
      else if m >= 1 then Medium
      else Low
  }

  /** Every violation has one of the two severities, so a non-empty list is at least medium. */
  lemma {:induction false} SeveritiesCover(vs: seq<Violation>)
    ensures CountSeverity(vs, HighSeverity) + CountSeverity(vs, MediumSeverity) == |vs|
  {
    if |vs| > 0 {
      SeveritiesCover(vs[..|vs| - 1]);
    }
  }

  /** Two high-severity violations are critical; one high with one medium is high. */
  lemma RiskExamples(a: Violation, b: Violation)
    ensures a.severity == HighSeverity && b.severity == HighSeverity ==> RiskLevel([a, b]) == Critical
    ensures a.severity == HighSeverity && b.severity == MediumSeverity ==> RiskLevel([a, b]) == High
    ensures a.severity == MediumSeverity && b.severity == MediumSeverity ==> RiskLevel([a, b]) == Medium
  {
    assert [a, b][..1] == [a];
    assert [a][..0] == [];
    assert CountSeverity([a], HighSeverity) == (if a.severity == HighSeverity then 1 else 0);
    assert CountSeverity([a], MediumSeverity) == (if a.severity == MediumSeverity then 1 else 0);
  }

  /** Reporting one more violation never lowers the risk level. */
  lemma RiskMonotone(vs: seq<Violation>, v: Violation)
    ensures RiskRank(RiskLevel(vs)) <= RiskRank(RiskLevel(vs + [v]))
  {
    assert (vs + [v])[..|vs|] == vs;
    SeveritiesCover(vs + [v]);
  }

  /** `detectCheating`'s verdict. */
  datatype Detection = Detection(isCheating: bool, violations: seq<Violation>, risk: Risk)

  /** A suspicious submission as kept for review. */
  datatype Suspicion = Suspicion(score: int, violations: seq<Violation>, timestamp: int)

  /** The suspicious submissions per player. */
  type SuspicionLog = map<string, seq<Suspicion>>

  /** The records newer than `cutoff`, in their original order. */
  function Recent(rs: seq<Suspicion>, cutoff: int): (r: seq<Suspicion>)
    ensures |r| <= |rs|
  {
    if |rs| == 0 then []
    else if rs[0].timestamp > cutoff then [rs[0]] + Recent(rs[1..], cutoff)
    else Recent(rs[1..], cutoff)
  }

  /** The filter keeps exactly the records newer than the cut-off. */
  lemma {:induction false} RecentMembers(rs: seq<Suspicion>, cutoff: int)
    ensures forall x :: x in Recent(rs, cutoff) <==> x in rs && x.timestamp > cutoff
  {
    if |rs| > 0 {
      RecentMembers(rs[1..], cutoff);
      assert forall x :: x in rs <==> x == rs[0] || x in rs[1..];
    }
  }

  /** A single record is kept exactly when it is newer than the cut-off. */
  lemma RecentSingle(x: Suspicion, cutoff: int)
    ensures Recent([x], cutoff) == if x.timestamp > cutoff then [x] else []
  {
  }

  /** Filtering distributes over concatenation, so kept records stay in their
      original order and multiplicity. */
  lemma {:induction false} RecentConcat(a: seq<Suspicion>, b: seq<Suspicion>, cutoff: int)
    ensures Recent(a + b, cutoff) == Recent(a, cutoff) + Recent(b, cutoff)
  {
    if |a| == 0 {
      assert a + b == b;
    } else {
      var ab, tail := a + b, a[1..];
      assert ab[0] == a[0];
      assert ab[1..] == tail + b;
      RecentConcat(tail, b, cutoff);
      var x, y, z := Recent(tail, cutoff), Recent(b, cutoff), Recent(tail + b, cutoff);
      assert z == x + y;
      if a[0].timestamp > cutoff {
        assert Recent(ab, cutoff) == [a[0]] + z;
        assert Recent(a, cutoff) == [a[0]] + x;
        assert [a[0]] + (x + y) == ([a[0]] + x) + y;
      } else {
        assert Recent(ab, cutoff) == z;
        assert Recent(a, cutoff) == x;
      }
    }
  }

  /** `recordSuspiciousBehavior` followed by `cleanupOldRecords`: append, then
      forget records older than 30 days (and the player, if none remain). */
  function RecordSuspicion(log: SuspicionLog, player: string, vs: seq<Violation>, score: int, now: int)
    : (r: SuspicionLog)
    ensures forall p :: p != player ==> (p in r <==> p in log) && (p in log ==> r[p] == log[p])
    ensures player in r
    ensures Suspicion(score, vs, now) in r[player]
    ensures forall x :: x in r[player] ==> x.timestamp > now - RetentionMs
    ensures forall x :: x in r[player] <==>
      x == Suspicion(score, vs, now) || (player in log && x in log[player] && x.timestamp > now - RetentionMs)
  {
    var records := (if player in log then log[player] else []) + [Suspicion(score, vs, now)];
    var kept := Recent(records, now - RetentionMs);
    RecentMembers(records, now - RetentionMs);
    if |kept| == 0 then log - {player}
    else log[player := kept]
  }

  /** `detectCheating`: evaluate the rules, log the submission if any fired, and
      report the risk. */
  function DetectCheating(log: SuspicionLog, player: string, score: int, ev: Evidence, now: int)
    : (r: (SuspicionLog, Detection))
    ensures r.1.violations == Violations(score, ev, now)
    ensures r.1.isCheating <==> exists rule :: Triggered(rule, score, ev)
    ensures r.1.risk == RiskLevel(r.1.violations)
    ensures !r.1.isCheating ==> r.0 == log
    ensures r.1.isCheating ==> r.0 == RecordSuspicion(log, player, r.1.violations, score, now)
  {
    var vs := Violations(score, ev, now);
    var d := Detection(|vs| > 0, vs, RiskLevel(vs));
    if |vs| > 0 then (RecordSuspicion(log, player, vs, score, now), d) else (log, d)
  }

  /** A clean submission is low risk. */
  lemma CleanIsLowRisk(log: SuspicionLog, player: string, score: int, ev: Evidence, now: int)
    requires score <= ImpossibleScore && ev.reactionTime >= SpeedHackThreshold
    requires ev.positionDelta <= PositionJumpThreshold && ev.perfectStreak <= PerfectStreakThreshold
    ensures !DetectCheating(log, player, score, ev, now).1.isCheating
    ensures DetectCheating(log, player, score, ev, now).1.risk == Low
  {
  }

  /** The running statistics of one player. `scoreVariance` is the square root
      of a running blend of squared deviations, not a variance. */
  datatype Baseline = Baseline(gamesPlayed: nat, avgScore: real, avgReactionTime: real, scoreVariance: NonNeg, lastUpdate: int)

  const FreshBaseline: Baseline := Baseline(0, 0.0, 0.0, 0.0, 0)

  /** What a finished game contributes to the baseline. */
  datatype Session = Session(score: real, avgReactionTime: real)

  /** The mean of k values averaging `avg`, after one more value `x`. */
  function RunningMean(avg: real, k: nat, x: real): (m: real)
    ensures m * (k + 1) as real == avg * k as real + x
  {
    (avg * k as real + x) / (k + 1) as real
  }

  /** The spread's running blend: `prev` weighted by the k earlier games, and the
      square of the new score's distance from the updated average. */
  function Blend(prev: NonNeg, k: nat, diff: real): (v: NonNeg)
    ensures v * (k + 1) as real == prev * k as real + diff * diff
  {
    assert prev * k as real >= 0.0;
    (prev * k as real + diff * diff) / (k + 1) as real
  }

  /** `updateBehaviorBaseline` on one player's record. */
  function UpdateBaseline(b: Baseline, s: Session, now: int, sqrt: Sqrt): (r: Baseline)
    ensures r.gamesPlayed == b.gamesPlayed + 1
    ensures r.avgScore * r.gamesPlayed as real == b.avgScore * b.gamesPlayed as real + s.score
    ensures r.avgReactionTime * r.gamesPlayed as real == b.avgReactionTime * b.gamesPlayed as real + s.avgReactionTime
    ensures r.scoreVariance >= 0.0 && r.lastUpdate == now
    ensures r.scoreVariance == sqrt(Blend(b.scoreVariance, b.gamesPlayed, s.score - r.avgScore))
  {
    var avg := RunningMean(b.avgScore, b.gamesPlayed, s.score);
    var avgRt := RunningMean(b.avgReactionTime, b.gamesPlayed, s.avgReactionTime);
    Baseline(b.gamesPlayed + 1, avg, avgRt, sqrt(Blend(b.scoreVariance, b.gamesPlayed, s.score - avg)), now)
  }

  type Baselines = map<string, Baseline>

  /** `updateBehaviorBaseline`: a player without a record starts from zeros. */
  function UpdateBehaviorBaseline(m: Baselines, player: string, s: Session, now: int, sqrt: Sqrt): (r: Baselines)
    ensures r.Keys == m.Keys + {player}
    ensures forall p :: p in m && p != player ==> r[p] == m[p]
    ensures r[player].gamesPlayed == (if player in m then m[player].gamesPlayed else 0) + 1
    ensures r[player] == UpdateBaseline(if player in m then m[player] else FreshBaseline, s, now, sqrt)
  {
    var b := if player in m then m[player] else FreshBaseline;
    m[player := UpdateBaseline(b, s, now, sqrt)]
  }

  function Sum(ss: seq<Session>): real {
    if |ss| == 0 then 0.0 else Sum(ss[..|ss| - 1]) + ss[|ss| - 1].score
  }

  /** The baseline after a player's sessions, oldest first. */
  function BaselineAfter(ss: seq<Session>, now: int, sqrt: Sqrt): Baseline {
    if |ss| == 0 then FreshBaseline
    else UpdateBaseline(BaselineAfter(ss[..|ss| - 1], now, sqrt), ss[|ss| - 1], now, sqrt)
  }

  /** The running mean of the sessions' scores, folded oldest first. */
  function MeanOf(ss: seq<Session>): real {
    if |ss| == 0 then 0.0 else RunningMean(MeanOf(ss[..|ss| - 1]), |ss| - 1, ss[|ss| - 1].score)
  }

  /** After n games the baseline counts n games and its average score is the
      arithmetic mean of the n scores. */
  lemma BaselineIsMean(ss: seq<Session>, now: int, sqrt: Sqrt)
    ensures BaselineAfter(ss, now, sqrt).gamesPlayed == |ss|
    ensures |ss| > 0 ==> BaselineAfter(ss, now, sqrt).avgScore == Sum(ss) / |ss| as real
  {
    BaselineTracksMean(ss, now, sqrt);
    MeanIsAverage(ss);
  }

  /** The running mean is the total divided by the count. */
  lemma MeanIsAverage(ss: seq<Session>)
    ensures |ss| > 0 ==> MeanOf(ss) == Sum(ss) / |ss| as real
  {
    MeanTimesCount(ss);
    if |ss| > 0 {
      DivideBack(MeanOf(ss), |ss| as real, Sum(ss));
    }
  }

  /** The baseline counts the sessions and its average follows the running mean. */
  lemma {:induction false} BaselineTracksMean(ss: seq<Session>, now: int, sqrt: Sqrt)
    ensures BaselineAfter(ss, now, sqrt).gamesPlayed == |ss|
    ensures BaselineAfter(ss, now, sqrt).avgScore == MeanOf(ss)
  {
    if |ss| > 0 {
      BaselineTracksMean(ss[..|ss| - 1], now, sqrt);
    }
  }

  /** The running mean times the number of sessions is their total. */
  lemma {:induction false} MeanTimesCount(ss: seq<Session>)
    ensures MeanOf(ss) * |ss| as real == Sum(ss)
  {
    if |ss| > 0 {
      MeanTimesCount(ss[..|ss| - 1]);
    }
  }

  /** A value times a positive whole is recovered by dividing back. */
  lemma DivideBack(x: real, n: real, total: real)
    requires n > 0.0 && x * n == total
    ensures x == total / n
  {
  }

  datatype Reason = InsufficientData | ScoreTooHigh | WithinReasonableRange

  datatype Validation = Validation(isValid: bool, reason: Reason)

  /** `validateScoreReasonableness`: a score is implausible only against a
      baseline of at least 5 games, and then exactly when it exceeds the average
      by more than three times `scoreVariance`. */
  function ValidateScore(m: Baselines, player: string, score: int): (v: Validation)
    ensures player !in m || m[player].gamesPlayed < MinBaselineGames ==> v == Validation(true, InsufficientData)
    ensures player in m && m[player].gamesPlayed >= MinBaselineGames ==>
      (!v.isValid <==> score as real > m[player].avgScore + 3.0 * m[player].scoreVariance)
    ensures !v.isValid ==> v.reason == ScoreTooHigh
    ensures v.isValid && v.reason != InsufficientData ==> v.reason == WithinReasonableRange
  {
    if player !in m || m[player].gamesPlayed < MinBaselineGames then Validation(true, InsufficientData)
    else if score as real > m[player].avgScore + 3.0 * m[player].scoreVariance then Validation(false, ScoreTooHigh)
    else Validation(true, WithinReasonableRange)
  }

  /** A score no higher than the player's average always passes. */
  lemma AverageScorePasses(m: Baselines, player: string, score: int)
    requires player in m && score as real <= m[player].avgScore
    ensures ValidateScore(m, player, score).isValid
  {
  }
}

=== FILE: collision.dfy ===
/** Collision resolution for one frame: the bottom strip, riding an attached
    platform, the ground check, and landing on the first qualifying platform,
    with its combo and score bookkeeping. */
module Collision {
  import opened Common
  import opened Entities

  /** Half-height of the landing window around a platform's top edge. */
  const LandingTolerance: real := 25.0
  /** Distance within which a rider is left where it is instead of re-snapped. */
  const SyncTolerance: real := 2.0
  /** Centre distance below which a landing is perfect. */
  const PerfectDistance: real := 20.0

  /** `isColliding`: the two boxes overlap with positive area (strict comparisons). */
  predicate IsColliding(a: Box, b: Box) {
    a.x < b.x + b.width && a.x + a.width > b.x && a.y < b.y + b.height && a.y + a.height > b.y
  }

  /** Platforms with a non-positive size are skipped by the landing scan. */
  predicate HasCollisionBox(p: Platform) {
    p.width > 0.0 && p.height > 0.0
  }

  /** The landing test of `checkCollisions`, written as the source writes it:
      collision, falling, bottom edge within 25 of the top edge, and horizontal overlap. */
  predicate CanLand(c: Character, p: Platform) {
    && HasCollisionBox(p)
    && IsColliding(c.Bounds(), p.Bounds())
    && c.vy > 0.0
    && c.Bottom() >= p.y - LandingTolerance && c.Bottom() <= p.y + LandingTolerance
    && c.x < p.Right() && c.x + c.width > p.x
  }

  /** What the landing test really admits: the strict box overlap already forces
      the bottom edge below the top edge, so only the window (top, top + 25] is live. */
  lemma LandingCharacterisation(c: Character, p: Platform)
    ensures CanLand(c, p) <==>
      && p.width > 0.0 && p.height > 0.0 && c.vy > 0.0
      && c.x < p.x + p.width && p.x < c.x + c.width
      && c.y < p.y + p.height
      && p.y < c.Bottom() <= p.y + 25.0
  {
  }

  /** The upper half of the nominal ±25 window never lands: a bottom edge at or
      above the top edge (for instance exactly 25 above it) is rejected. */
  lemma UpperHalfOfWindowUnreachable(c: Character, p: Platform)
    requires c.Bottom() <= p.y
    ensures !CanLand(c, p)
  {
  }

  /** The first-match scan over the platform array. */
  method FindLanding(c: Character, ps: seq<Platform>) returns (found: Option<nat>)
    ensures found.Some? ==> found.value < |ps| && CanLand(c, ps[found.value])
    ensures found.Some? ==> forall j :: 0 <= j < found.value ==> !CanLand(c, ps[j])
    ensures found.None? ==> forall j :: 0 <= j < |ps| ==> !CanLand(c, ps[j])
  {
    var i := 0;
    while i < |ps|
      invariant 0 <= i <= |ps|
      invariant forall j :: 0 <= j < i ==> !CanLand(c, ps[j])
    {
      if CanLand(c, ps[i]) {
        return Some(i);
      }
      i := i + 1;
    }
    return None;
  }

  /** Combo and score after a landing. */
  datatype Tally = Tally(score: int, combo: int, perfectCount: nat, maxCombo: int)

  /** `perfectLanding` followed by the base award of `10 × combo`: a perfect
      landing raises the combo (capped at 5) and earns `5 × combo` on top; any
      other landing resets the combo to 1. */
  function ScoreLanding(t: Tally, perfect: bool): (r: Tally)
    ensures 1 <= t.combo <= MaxCombo && t.combo <= t.maxCombo ==>
      1 <= r.combo <= MaxCombo && r.combo <= r.maxCombo
    ensures perfect ==>
      && r.combo == MinInt(t.combo + 1, MaxCombo)
      && r.score == t.score + 15 * r.combo
      && r.perfectCount == t.perfectCount + 1
      && r.maxCombo == MaxInt(t.maxCombo, r.combo)
    ensures !perfect ==> r == t.(combo := 1, score := t.score + 10)
  {
    if perfect then
      var combo := MinInt(t.combo + 1, MaxCombo);
      var afterBonus := t.score + 5 * combo;
      Tally(afterBonus + 10 * combo, combo, t.perfectCount + 1, MaxInt(t.maxCombo, combo))
    else
      var reset := t.(combo := 1);
      reset.(score := reset.score + 10 * reset.combo)
  }

  /** Every landing earns between 10 and 75 points, in steps of 5; a perfect
      landing earns at least 30, and from a combo of 4 or more it earns the cap of 75. */
  lemma LandingAward(t: Tally, perfect: bool)
    requires 1 <= t.combo <= MaxCombo && t.combo <= t.maxCombo
    ensures var r := ScoreLanding(t, perfect);
      && 10 <= r.score - t.score <= 75
      && (r.score - t.score) % 5 == 0
      && (perfect && t.combo >= 4 ==> r.score - t.score == 75)
      && (perfect ==> r.score - t.score >= 30)
  {
  }

  function TallyOf(g: Game): Tally {
    Tally(g.score, g.combo, g.perfectCount, g.maxCombo)
  }

  /** `trackJumpLanding`, run after the velocity has been zeroed: the recorded
      landing velocity is therefore (0, 0) and the angle `atan2(0, 0)` is 0. */
  function TrackLanding(jd: JumpData, c: Character, p: Platform, gameStartTime: int, now: int): (r: JumpData)
    ensures r.trajectory == jd.trajectory + [Sample(c.x, c.y, c.vx, c.vy, now)]
    ensures r.positionDelta == Abs(p.Center() - c.Center())
    ensures r.actualTiming == now - gameStartTime
  {
    jd.(positionDelta := Abs(p.Center() - c.Center()),
        landingVx := c.vx, landingVy := c.vy,
        landingAngle := 0.0,
        actualTiming := now - gameStartTime,
        trajectory := jd.trajectory + [Sample(c.x, c.y, c.vx, c.vy, now)])
  }

  /** The landing transition onto platform `i`: snap on top, stop, attach with the
      current offset, record telemetry and score. */
  function Land(g: Game, i: nat, now: int): (r: Game)
    requires i < |g.platforms|
    ensures var p := g.platforms[i];
      && r.character == g.character.(y := p.y - g.character.height, vx := 0.0, vy := 0.0, isJumping := false)
      && r.attached == Some(p.id)
      && r.character.x == p.x + r.attachmentOffset
      && r.jumpData.landingVx == 0.0 && r.jumpData.landingVy == 0.0
      && |r.jumpData.trajectory| == |g.jumpData.trajectory| + 1
      && r.lastJumpTime == now
      && TallyOf(r) == ScoreLanding(TallyOf(g), Abs(p.Center() - g.character.Center()) < PerfectDistance)
    ensures ComboInvariant(g) ==> ComboInvariant(r) && r.score >= g.score + 10
    ensures r.platforms == g.platforms && r.isPlaying == g.isPlaying && r.endings == g.endings
  {
    var p := g.platforms[i];
    var c := g.character.(y := p.y - g.character.height, vx := 0.0, vy := 0.0, isJumping := false);
    var perfect := Abs(p.Center() - c.Center()) < PerfectDistance;
    var t := ScoreLanding(TallyOf(g), perfect);
    g.(character := c,
       attached := Some(p.id),
       attachmentOffset := c.x - p.x,
       jumpData := TrackLanding(g.jumpData, c, p, g.gameStartTime, now),
       lastJumpTime := now,
       score := t.score, combo := t.combo, perfectCount := t.perfectCount, maxCombo := t.maxCombo)
  }

  /** Riding: a standing character attached to a platform is re-snapped to
      `platform.x + offset` when it drifted more than 2 away, and detached (put
      back into flight) once it is no longer over the platform. */
  function SyncAttachment(g: Game): (r: Game)
    ensures r.platforms == g.platforms && r.score == g.score && r.combo == g.combo
    ensures r.endings == g.endings && r.isPlaying == g.isPlaying && r.maxCombo == g.maxCombo
    ensures g.character.isJumping || g.attached.None? ==> r == g
    ensures r.attached.Some? && r.attached == g.attached && !r.character.isJumping ==>
      match FindPlatform(r.platforms, r.attached.value)
      case Some(k) => Abs(r.character.x - (r.platforms[k].x + r.attachmentOffset)) <= SyncTolerance
                      && r.character.x + r.character.width >= r.platforms[k].x
                      && r.character.x <= r.platforms[k].Right()
      case None => r.character == g.character
    ensures r.attached.None? && g.attached.Some? ==> r.character.isJumping && r.attachmentOffset == 0.0
    ensures r.character == g.character.(x := r.character.x, isJumping := r.character.isJumping)
    ensures r == g.(character := r.character, attached := r.attached, attachmentOffset := r.attachmentOffset)
  {
    if g.character.isJumping || g.attached.None? then g
    else
      match FindPlatform(g.platforms, g.attached.value)
      case None => g
      case Some(k) =>
        var p := g.platforms[k];
        var targetX := p.x + g.attachmentOffset;
        var x := if Abs(targetX - g.character.x) > SyncTolerance then targetX else g.character.x;
        var c := g.character.(x := x);
        if c.x + c.width < p.x || c.x > p.Right() then
          g.(character := c.(isJumping := true), attached := None, attachmentOffset := 0.0)
        else g.(character := c)
  }

  /** The character's feet are within 5 of a platform top and it overlaps that platform. */
  predicate Supports(c: Character, p: Platform) {
    c.Bottom() >= p.y - 5.0 && c.Bottom() <= p.y + 5.0 && c.x + c.width > p.x && c.x < p.Right()
  }

  predicate OnGround(c: Character, ps: seq<Platform>) {
    exists i :: 0 <= i < |ps| && Supports(c, ps[i])
  }

  /** The ground check: a standing character above y = 500 that no platform
      supports is put back into flight and detached. */
  function GroundCheck(g: Game): (r: Game)
    ensures g.character.isJumping || g.character.y >= 500.0 || OnGround(g.character, g.platforms) ==> r == g
    ensures !g.character.isJumping && g.character.y < 500.0 && !OnGround(g.character, g.platforms) ==>
      r == g.(character := g.character.(isJumping := true), attached := None, attachmentOffset := 0.0)
  {
    if !g.character.isJumping && g.character.y < 500.0 && !OnGround(g.character, g.platforms) then
      g.(character := g.character.(isJumping := true), attached := None, attachmentOffset := 0.0)
    else g
  }

  /** `checkCollisions` for one frame. `landedOn` reports the platform landed on. */
  method CheckCollisions(g: Game, now: int) returns (r: Game, landedOn: Option<nat>)
    ensures ComboInvariant(g) ==> ComboInvariant(r)
    ensures r.platforms == g.platforms
    ensures ComboInvariant(g) ==> r.score >= g.score + (if landedOn.Some? then 10 else 0)
    // the bottom strip is checked first and ends the run on contact
    ensures g.bottomLine.Some? && IsColliding(g.character.Bounds(), g.bottomLine.value) ==>
      r == EndRun(g, BottomLine) && landedOn.None?
    // a landing happens on the first qualifying platform, as seen after riding and the ground check
    ensures landedOn.Some? ==>
      var s := GroundCheck(SyncAttachment(g));
      && landedOn.value < |g.platforms|
      && CanLand(s.character, g.platforms[landedOn.value])
      && (forall j :: 0 <= j < landedOn.value ==> !CanLand(s.character, g.platforms[j]))
      && r == Land(s, landedOn.value, now)
    ensures landedOn.None? ==> r.score == g.score && r.combo == g.combo
    // without the strip or a landing the frame leaves the run and its telemetry alone
    ensures landedOn.None? && !(g.bottomLine.Some? && IsColliding(g.character.Bounds(), g.bottomLine.value)) ==>
      r.endings == g.endings && r.isPlaying == g.isPlaying && r.jumpData == g.jumpData
    // a character still rising (or moving level) never lands
    ensures g.character.isJumping && g.character.vy <= 0.0 ==> landedOn.None?
    // the frame reports at most the bottom-strip ending and keeps telemetry unless it lands
    ensures r.endings == g.endings || r.endings == g.endings + [BottomLine]
    ensures landedOn.None? ==> r.jumpData == g.jumpData
  {
    if g.bottomLine.Some? && IsColliding(g.character.Bounds(), g.bottomLine.value) {
      return EndRun(g, BottomLine), None;
    }
    r, landedOn := RideAndLand(g, now);
  }

  /** The part of the frame after the bottom-strip test: riding, the early
      return of a rising character, the ground check and the landing scan. */
  method RideAndLand(g: Game, now: int) returns (r: Game, landedOn: Option<nat>)
    ensures r.platforms == g.platforms
    ensures ComboInvariant(g) ==> ComboInvariant(r) && r.score >= g.score + (if landedOn.Some? then 10 else 0)
    ensures landedOn.Some? ==>
      var s := GroundCheck(SyncAttachment(g));
      && landedOn.value < |g.platforms|
      && CanLand(s.character, g.platforms[landedOn.value])
      && (forall j :: 0 <= j < landedOn.value ==> !CanLand(s.character, g.platforms[j]))
      && r == Land(s, landedOn.value, now)
    ensures landedOn.None? ==>
      r.score == g.score && r.combo == g.combo && r.endings == g.endings && r.isPlaying == g.isPlaying && r.jumpData == g.jumpData
    ensures g.character.isJumping && g.character.vy <= 0.0 ==> landedOn.None?
  {
    var g1 := SyncAttachment(g);
    if g1.character.isJumping && g1.character.vy <= 0.0 {
      return g1, None;
    }
    var g2 := GroundCheck(g1);
    SettleKeeps(g);
    r, landedOn := LandFirst(g2, now);
  }

  /** Riding and the ground check move and detach the character and touch
      nothing else. */
  lemma SettleKeeps(g: Game)
    ensures var g2 := GroundCheck(SyncAttachment(g));
      g2 == g.(character := g2.character, attached := g2.attached, attachmentOffset := g2.attachmentOffset)
  {
  }

  /** The landing scan of a settled frame: land on the first platform that
      passes the landing test, or leave the frame as it is when none does. */
  method LandFirst(g: Game, now: int) returns (r: Game, landedOn: Option<nat>)
    ensures landedOn.Some? ==>
      && landedOn.value < |g.platforms|
      && CanLand(g.character, g.platforms[landedOn.value])
      && (forall j :: 0 <= j < landedOn.value ==> !CanLand(g.character, g.platforms[j]))
      && r == Land(g, landedOn.value, now)
    ensures landedOn.None? ==> r == g && forall j :: 0 <= j < |g.platforms| ==> !CanLand(g.character, g.platforms[j])
  {
    landedOn := FindLanding(g.character, g.platforms);
    if landedOn.Some? {
      r := Land(g, landedOn.value, now);
    } else {
      r := g;
    }
  }
}

=== FILE: common.dfy ===
/** Small shared vocabulary: optional values, non-negative reals, random draws
    and the JavaScript helpers (clamping, `Array.prototype.slice`) the game relies on. */
module Common {

  /** A JavaScript value that may be `null`/`undefined`. */
  datatype Option<+T> = None | Some(value: T) {
    function GetOr(default: T): T {
      match this
      case Some(v) => v
      case None => default
    }
  }

  /** A real that cannot be negative: what `Math.sqrt` and `Math.abs` return. */
  type NonNeg = r: real | r >= 0.0

  /** A value of `Math.random()`: uniformly drawn from [0, 1). */
  type Roll = r: real | 0.0 <= r < 1.0

  /** `Math.sqrt`, left uninterpreted except for its sign. */
  type Sqrt = NonNeg -> NonNeg

  function Abs(x: real): (r: NonNeg)
    ensures r == x || r == -x
  {
    if x < 0.0 then -x else x
  }

  function Max(a: real, b: real): (r: real)
    ensures r >= a && r >= b
    ensures r == a || r == b
  {
    if a >= b then a else b
  }

  function Min(a: real, b: real): (r: real)
    ensures r <= a && r <= b
    ensures r == a || r == b
  {
    if a <= b then a else b
  }

  function MaxInt(a: int, b: int): (r: int)
    ensures r >= a && r >= b
    ensures r == a || r == b
  {
    if a >= b then a else b
  }

  function MinInt(a: int, b: int): (r: int)
    ensures r <= a && r <= b
    ensures r == a || r == b
  {
    if a <= b then a else b
  }

  /** `Math.max(lo, Math.min(hi, x))`. */
  function Clamp(x: real, lo: real, hi: real): (r: real)
    requires lo <= hi
    ensures lo <= r <= hi
    ensures lo <= x <= hi ==> r == x
  {
    Max(lo, Min(hi, x))
  }

  /** The start index `Array.prototype.slice(start)` actually uses on an array of
      length `n`: negative starts count from the end, and both are clipped to [0, n]. */
  function SliceStart(start: int, n: nat): (k: nat)
    ensures k <= n
    ensures start < 0 ==> k == MaxInt(n + start, 0)
    ensures start >= 0 ==> k == MinInt(start, n)
  {
    if start < 0 then (if n + start > 0 then n + start else 0)
    else if start < n then start else n
  }

  /** `xs.slice(start)`. */
  function JsSliceFrom<T>(xs: seq<T>, start: int): seq<T>
  {
    xs[SliceStart(start, |xs|)..]
  }

  /** A share of a positive whole lies in [0, 1] and scales back to the part. */
  lemma MeanInUnit(total: real, n: real)
    requires n > 0.0 && 0.0 <= total <= n
    ensures 0.0 <= total / n <= 1.0 && (total / n) * n == total
  {
  }
}

=== FILE: entities.dfy ===
/** The per-run state of the jumping game: the character, the active platform
    set, the flight telemetry and the bookkeeping of the game loop. */
module Entities {
  import opened Common

  /** Gravity added to the vertical velocity on every tick (units per tick squared). */
  const Gravity: real := 0.8
  /** Side length of the character's square bounding box. */
  const CharacterSize: real := 40.0
  /** Every platform's height: fixed so that collision boxes never vary. */
  const PlatformHeight: real := 20.0
  /** Maximum number of motion samples the integrator records during one flight. */
  const TrajectoryCap: nat := 50
  /** Largest charge power; a release uses `min(power, MaxPower) / 100`. */
  const MaxPower: real := 150.0
  /** Largest combo multiplier. */
  const MaxCombo: int := 5

  /** The browser window, `window.innerWidth` by `window.innerHeight`. */
  datatype Screen = Screen(width: real, height: real)
  type Viewport = s: Screen | s.width > 0.0 && s.height > 0.0 witness Screen(1.0, 1.0)

  /** An axis-aligned box, with y growing downwards as on screen. */
  datatype Box = Box(x: real, y: real, width: real, height: real)

  /** Platform ids are `Date.now() + Math.random()`. */
  type PlatformId = real

  /** A platform. `speed`, `direction` and `moveRange` describe the horizontal
      oscillation of moving platforms; the bootstrap platforms carry speed 0. */
  datatype Platform = Platform(
    x: real, y: real, width: real, height: real,
    id: PlatformId,
    speed: real, direction: int, moveRange: real, originalX: real)
  {
    function Bounds(): Box { Box(x, y, width, height) }
    function Right(): real { x + width }
    function Center(): real { x + width / 2.0 }
  }

  datatype Character = Character(
    x: real, y: real, width: real, height: real,
    vx: real, vy: real, isJumping: bool)
  {
    function Bounds(): Box { Box(x, y, width, height) }
    function Bottom(): real { y + height }
    function Center(): real { x + width / 2.0 }
  }

  /** One point of the recorded flight path. */
  datatype Sample = Sample(x: real, y: real, vx: real, vy: real, timestamp: int)

  /** The telemetry of the latest jump, consumed by scoring and anti-cheat. */
  datatype JumpData = JumpData(
    reactionTime: int,
    positionDelta: real,
    trajectory: seq<Sample>,
    landingVx: real, landingVy: real,
    landingAngle: real,
    optimalTiming: int,
    actualTiming: int)

  /** Why a run ended; one constructor per independent failure guard. */
  datatype FailReason =
    | OutOfHorizontalBand   // x left [-200, W + 200]
    | BelowScreenMargin     // bottom edge more than 50 below the screen
    | OutsideSideMargin     // beyond 100 units past either side
    | BelowScreen           // top edge below the screen
    | FastFallLow           // vy > 15 in the lowest fifth
    | StuckAtBottom         // bottom edge within 10 of the screen bottom while falling
    | ProlongedFall         // the fall timer ran for more than 1000 ms
    | TooHigh               // y < -500
    | SpeedAnomaly          // |vx| > 50 or |vy| > 30
    | BottomLine            // touched the invisible strip near the screen bottom

  datatype Game = Game(
    score: int,
    combo: int,
    perfectCount: nat,
    maxCombo: int,
    isPlaying: bool,
    isCharging: bool,
    power: real,
    character: Character,
    platforms: seq<Platform>,
    gameSpeed: real,
    platformSpeed: real,
    lastPlatformX: real,
    jumpData: JumpData,
    gameStartTime: int,
    lastJumpTime: int,
    fallStart: Option<int>,
    attached: Option<PlatformId>,
    attachmentOffset: real,
    bottomLine: Option<Box>,
    endings: seq<FailReason>)

  /** `gameOver()`: stops the loop and records why. Every call is kept, since the
      game can reach it more than once within a single frame. */
  function EndRun(g: Game, reason: FailReason): (r: Game)
    ensures !r.isPlaying
    ensures r.endings == g.endings + [reason]
    ensures r.character == g.character && r.score == g.score && r.platforms == g.platforms
    ensures r.combo == g.combo && r.maxCombo == g.maxCombo && r.jumpData == g.jumpData
  {
    g.(isPlaying := false, endings := g.endings + [reason])
  }

  /** The combo bookkeeping every state of a run keeps. */
  ghost predicate ComboInvariant(g: Game) {
    1 <= g.combo <= MaxCombo && g.combo <= g.maxCombo
  }

  /** Index of the first platform carrying `id`, the lookup that replaces the
      source's object reference to the attached platform. */
  function FindPlatform(ps: seq<Platform>, id: PlatformId): (r: Option<nat>)
    ensures r.Some? ==> r.value < |ps| && ps[r.value].id == id
    ensures r.Some? ==> forall j :: 0 <= j < r.value ==> ps[j].id != id
    ensures r.None? ==> forall j :: 0 <= j < |ps| ==> ps[j].id != id
  {
    if |ps| == 0 then None
    else if ps[0].id == id then Some(0)
    else match FindPlatform(ps[1..], id)
      case None => None
      case Some(k) => Some(k + 1)
  }
}

=== FILE: failure.dfy ===
/** The failure detector that runs on every airborne tick: an ordered list of
    independent guards, the first of which to fire ends the run, plus a
    resettable fall timer. */
module Failure {
  import opened Common
  import opened Entities

  /** Milliseconds the fall timer must exceed before it ends the run. */
  const FallTimeout: int := 1000

  /** The guards in the order they are checked. */
  const GuardOrder: seq<FailReason> := [
    OutOfHorizontalBand, BelowScreenMargin, OutsideSideMargin, BelowScreen,
    FastFallLow, StuckAtBottom, ProlongedFall, TooHigh, SpeedAnomaly]

  /** `!fallStartTime` in the source: an unset timer, and also a timer started at time 0. */
  predicate TimerUnset(fallStart: Option<int>) {
    fallStart.None? || fallStart.value == 0
  }

  /** The character is low on the screen and falling fast: the condition the timer measures. */
  predicate FallCondition(c: Character, screen: Viewport) {
    c.y > screen.height * 0.9 && c.vy > 5.0
  }

  /** Whether the guard for `reason` fires on its own, given the timer as it
      stood when the check started. */
  predicate Fires(reason: FailReason, c: Character, screen: Viewport, fallStart: Option<int>, now: int) {
    match reason
    case OutOfHorizontalBand => c.x < -200.0 || c.x > screen.width + 200.0
    case BelowScreenMargin => c.Bottom() > screen.height + 50.0
    case OutsideSideMargin => c.x + c.width < -100.0 || c.x > screen.width + 100.0
    case BelowScreen => c.y > screen.height
    case FastFallLow => c.vy > 15.0 && c.y > screen.height * 0.8
    case StuckAtBottom => c.Bottom() >= screen.height - 10.0 && c.vy > 0.0
    case ProlongedFall =>
      FallCondition(c, screen) && !TimerUnset(fallStart) && now - fallStart.value > FallTimeout
    case TooHigh => c.y < -500.0
    case SpeedAnomaly => Abs(c.vx) > 50.0 || Abs(c.vy) > 30.0
    case BottomLine => false
  }

  /** Reference reading of the detector: the position in `GuardOrder` of the
      first guard at or after `from` that fires, or `|GuardOrder|` if none does. */
  function FirstFiring(c: Character, screen: Viewport, fallStart: Option<int>, now: int, from: nat): (k: nat)
    requires from <= |GuardOrder|
    ensures from <= k <= |GuardOrder|
    ensures k < |GuardOrder| ==> Fires(GuardOrder[k], c, screen, fallStart, now)
    ensures forall j :: from <= j < k ==> !Fires(GuardOrder[j], c, screen, fallStart, now)
    decreases |GuardOrder| - from
  {
    if from == |GuardOrder| then from
    else if Fires(GuardOrder[from], c, screen, fallStart, now) then from
    else FirstFiring(c, screen, fallStart, now, from + 1)
  }

  /** Outcome of one run of the detector: the guard that fired, if any, and the
      timer afterwards. */
  datatype Verdict = Verdict(reason: Option<FailReason>, fallStart: Option<int>)

  /** `checkGameFailureConditions` on the character's current state. */
  function CheckFailure(c: Character, screen: Viewport, fallStart: Option<int>, now: int): (v: Verdict)
    // The timer is only touched once the first six guards have passed; it then
    // starts when the fall condition appears and resets whenever it is absent.
    ensures (v.reason.Some? && v.reason.value !in {ProlongedFall, TooHigh, SpeedAnomaly})
      ==> v.fallStart == fallStart
    ensures (v.reason.None? || v.reason.value in {TooHigh, SpeedAnomaly}) ==>
      v.fallStart == (if !FallCondition(c, screen) then None
                      else if TimerUnset(fallStart) then Some(now) else fallStart)
    ensures v.reason == Some(ProlongedFall) ==> v.fallStart == fallStart
  {
    if Fires(OutOfHorizontalBand, c, screen, fallStart, now) then Verdict(Some(OutOfHorizontalBand), fallStart)
    else if Fires(BelowScreenMargin, c, screen, fallStart, now) then Verdict(Some(BelowScreenMargin), fallStart)
    else if Fires(OutsideSideMargin, c, screen, fallStart, now) then Verdict(Some(OutsideSideMargin), fallStart)
    else if Fires(BelowScreen, c, screen, fallStart, now) then Verdict(Some(BelowScreen), fallStart)
    else if Fires(FastFallLow, c, screen, fallStart, now) then Verdict(Some(FastFallLow), fallStart)
    else if Fires(StuckAtBottom, c, screen, fallStart, now) then Verdict(Some(StuckAtBottom), fallStart)
    else
      var timer :=
        if !FallCondition(c, screen) then None
        else if TimerUnset(fallStart) then Some(now)
        else fallStart;
      if FallCondition(c, screen) && !TimerUnset(fallStart) && now - fallStart.value > FallTimeout then
        Verdict(Some(ProlongedFall), fallStart)
      else if Fires(TooHigh, c, screen, fallStart, now) then Verdict(Some(TooHigh), timer)
      else if Fires(SpeedAnomaly, c, screen, fallStart, now) then Verdict(Some(SpeedAnomaly), timer)
      else Verdict(None, timer)
  }

  /** The verdict names the first guard in order that fires, and only that one. */
  lemma CheckFailureFirstGuard(c: Character, screen: Viewport, fallStart: Option<int>, now: int)
    ensures var k := FirstFiring(c, screen, fallStart, now, 0);
      CheckFailure(c, screen, fallStart, now).reason == (if k < |GuardOrder| then Some(GuardOrder[k]) else None)
  {
    var k := FirstFiring(c, screen, fallStart, now, 0);
    // Every guard before the first firing one is silent.
    if k == 0 {
    } else if k == 1 {
      assert !Fires(GuardOrder[0], c, screen, fallStart, now);
    } else if k == 2 {
      assert !Fires(GuardOrder[0], c, screen, fallStart, now);
      assert !Fires(GuardOrder[1], c, screen, fallStart, now);
    } else if k == 3 {
      assert !Fires(GuardOrder[0], c, screen, fallStart, now);
      assert !Fires(GuardOrder[1], c, screen, fallStart, now);
      assert !Fires(GuardOrder[2], c, screen, fallStart, now);
    } else {
      assert !Fires(GuardOrder[0], c, screen, fallStart, now);
      assert !Fires(GuardOrder[1], c, screen, fallStart, now);
      assert !Fires(GuardOrder[2], c, screen, fallStart, now);
      assert !Fires(GuardOrder[3], c, screen, fallStart, now);
      if k > 4 { assert !Fires(GuardOrder[4], c, screen, fallStart, now); }
      if k > 5 { assert !Fires(GuardOrder[5], c, screen, fallStart, now); }
      if k > 6 { assert !Fires(GuardOrder[6], c, screen, fallStart, now); }
      if k > 7 { assert !Fires(GuardOrder[7], c, screen, fallStart, now); }
      if k > 8 { assert !Fires(GuardOrder[8], c, screen, fallStart, now); }
    }
  }

  /** The detector's effect on the game: a horizontal escape also stops the
      flight and zeroes the velocity; every failure ends the run. */
  function ApplyFailure(g: Game, screen: Viewport, now: int): (r: Game)
    ensures var v := CheckFailure(g.character, screen, g.fallStart, now);
      && r.fallStart == v.fallStart
      && (v.reason.None? ==> r == g.(fallStart := v.fallStart))
      && (v.reason.Some? ==> r.endings == g.endings + [v.reason.value] && !r.isPlaying)
      && (v.reason == Some(OutOfHorizontalBand) ==>
            r.character == g.character.(vx := 0.0, vy := 0.0, isJumping := false))
      && (v.reason.Some? && v.reason.value != OutOfHorizontalBand ==> r.character == g.character)
    ensures r.score == g.score && r.platforms == g.platforms && r.jumpData == g.jumpData
  {
    var v := CheckFailure(g.character, screen, g.fallStart, now);
    var g1 := g.(fallStart := v.fallStart);
    match v.reason
    case None => g1
    case Some(reason) =>
      if reason == OutOfHorizontalBand then
        EndRun(g1.(character := g1.character.(isJumping := false, vx := 0.0, vy := 0.0)), reason)
      else EndRun(g1, reason)
  }

  /** The fall timer never ends a run by itself before more than 1000 ms have
      passed since it started. */
  lemma ProlongedFallNeedsTime(c: Character, screen: Viewport, fallStart: Option<int>, now: int)
    requires CheckFailure(c, screen, fallStart, now).reason == Some(ProlongedFall)
    ensures fallStart.Some? && fallStart.value != 0 && now - fallStart.value > FallTimeout
    ensures FallCondition(c, screen)
  {
  }

  /** A character inside the screen, slow and not near the bottom passes every guard
      and leaves no fall timer running. */
  lemma CalmFlightPasses(c: Character, screen: Viewport, fallStart: Option<int>, now: int)
    requires 0.0 <= c.x && c.x + c.width <= screen.width && c.width >= 0.0
    requires -500.0 <= c.y && c.Bottom() < screen.height - 10.0 && c.y <= screen.height * 0.8
    requires Abs(c.vx) <= 15.0 && Abs(c.vy) <= 5.0
    ensures CheckFailure(c, screen, fallStart, now) == Verdict(None, None)
  {
  }
}

=== FILE: frame.dfy ===
/** A whole frame of the game loop and the start of a run. */
module Frame {
  import opened Common
  import opened Entities
  import opened Physics
  import opened Collision
  import opened Generation

  /** Distance of the invisible bottom strip above the screen's bottom edge. */
  const BottomLineInset: real := 10.0
  const BottomLineHeight: real := 5.0

  /** `createBottomCollisionLine`. */
  function BottomStrip(screen: Viewport): (b: Box)
    ensures b.x == 0.0 && b.width == screen.width && b.height == BottomLineHeight
    ensures b.y + BottomLineInset == screen.height
  {
    Box(0.0, screen.height - BottomLineInset, screen.width, BottomLineHeight)
  }

  /** `startGame`: fresh score, combo and speeds, a still 40 × 40 character on the
      first bootstrap platform, and the bottom strip. The jump telemetry, the
      clocks, the fall timer and the attachment are carried over from `prev`, as
      the source does not reset them. */
  function StartGame(prev: Game, screen: Viewport, b: BootDraw, draws: seq<Draw>, now: int): (r: Game)
    requires |draws| == 3
    ensures r.isPlaying && !r.isCharging && r.power == 0.0
    ensures r.score == 0 && r.combo == 1 && r.maxCombo == 1 && r.perfectCount == 0
    ensures ComboInvariant(r)
    ensures |r.platforms| == 5 && !r.character.isJumping
    ensures r.character.vx == 0.0 && r.character.vy == 0.0
    ensures r.gameSpeed == 1.0 && r.platformSpeed == 0.5
    ensures r.bottomLine == Some(BottomStrip(screen))
    ensures r.jumpData == prev.jumpData && r.fallStart == prev.fallStart && r.attached == prev.attached
    ensures r.endings == prev.endings
  {
    var boot := InitialPlatforms(screen, b, draws, now);
    prev.(
      score := 0, combo := 1, perfectCount := 0, maxCombo := 1,
      isPlaying := true,
      character := Character(boot.characterX, boot.characterY, CharacterSize, CharacterSize, 0.0, 0.0, false),
      platforms := boot.platforms,
      gameSpeed := 1.0, platformSpeed := 0.5,
      lastPlatformX := boot.lastPlatformX,
      isCharging := false, power := 0.0,
      bottomLine := Some(BottomStrip(screen)))
  }

  /** A run starts with the character standing on the first platform, so the
      ground check leaves it standing. */
  lemma StartsOnGround(prev: Game, screen: Viewport, b: BootDraw, draws: seq<Draw>, now: int)
    requires |draws| == 3
    ensures var g := StartGame(prev, screen, b, draws, now);
      && Supports(g.character, g.platforms[0])
      && OnGround(g.character, g.platforms)
      && GroundCheck(g) == g
  {
  }

  /** One iteration of the game loop: physics, collisions, platforms. Nothing
      happens once the run has stopped; a frame in which the run stops still
      completes. `wave` and `draws` feed `updatePlatforms`. */
  method Tick(g: Game, screen: Viewport, now: int, wave: nat -> real, draws: nat -> Draw)
    returns (r: Game, landedOn: Option<nat>)
    ensures !g.isPlaying ==> r == g && landedOn.None?
    ensures g.isPlaying ==> |r.platforms| >= MinPlatforms
    ensures g.isPlaying ==> Rightmost(r.platforms) >= screen.width + CoverageMargin || |r.platforms| >= MaxPlatforms
    ensures ComboInvariant(g) ==> ComboInvariant(r)
    ensures ComboInvariant(g) ==> r.score >= g.score + (if landedOn.Some? then 10 else 0)
    ensures landedOn.None? ==> r.score == g.score && r.combo == g.combo
    // physics and the bottom strip can each end the run once per frame
    ensures |g.endings| <= |r.endings| <= |g.endings| + 2
    ensures g.isPlaying && |g.jumpData.trajectory| <= TrajectoryCap && landedOn.None? ==>
      |r.jumpData.trajectory| <= TrajectoryCap
  {
    if !g.isPlaying {
      return g, None;
    }
    var g1 := UpdatePhysics(g, screen, now);
    var g2;
    g2, landedOn := CheckCollisions(g1, now);
    var used;
    r, used := UpdatePlatforms(g2, screen, wave, draws, now);
  }
}

=== FILE: generation.dfy ===
/** Procedural platform generation: one new platform to the right of the last,
    the five-platform bootstrap, the off-screen filter and the coverage loop. */
module Generation {
  import opened Common
  import opened Entities

  /** The `Math.random()` values one call of `generatePlatform` consumes, by purpose. */
  datatype Draw = Draw(
    width: Roll, distance: Roll, heightChange: Roll, edgePush: Roll,
    idNoise: Roll, moving: Roll, speed: Roll, direction: Roll, range: Roll)

  const MinGap: real := 100.0
  const MaxGap: real := 180.0
  const MinPlatformY: real := 200.0
  const MaxPlatformY: real := 400.0
  const MaxHeightChange: real := 80.0
  /** Platforms whose right edge is not beyond this x are dropped. */
  const DropEdge: real := -100.0
  /** Coverage target beyond the right edge of the screen. */
  const CoverageMargin: real := 200.0
  const MinPlatforms: nat := 4
  const MaxPlatforms: nat := 8

  /** The shape every generated platform has. */
  predicate WellShaped(p: Platform, screen: Viewport) {
    && p.height == PlatformHeight
    && 60.0 <= p.width < 100.0
    && p.x >= screen.width * 0.5
    && 250.0 <= p.y <= 350.0
  }

  /** The vertical position: a bounded random walk from the previous platform,
      clamped to [200, 400] and then pushed back into [250, 350]. */
  function NextY(lastY: real, d: Draw): (y: real)
    ensures 250.0 <= y <= 350.0
    ensures 250.0 <= Clamp(lastY + (d.heightChange - 0.5) * MaxHeightChange * 2.0, MinPlatformY, MaxPlatformY) <= 350.0
      ==> y == lastY + (d.heightChange - 0.5) * MaxHeightChange * 2.0
  {
    var y0 := Clamp(lastY + (d.heightChange - 0.5) * MaxHeightChange * 2.0, MinPlatformY, MaxPlatformY);
    if y0 < MinPlatformY + 50.0 then MinPlatformY + 50.0 + d.edgePush * 50.0
    else if y0 > MaxPlatformY - 50.0 then MaxPlatformY - 50.0 - d.edgePush * 50.0
    else y0
  }

  /** `generatePlatform`'s new platform for the current set. `lastPlatformX` is
      only consulted when the set is empty; `now` stands for `Date.now()`. */
  function NewPlatform(ps: seq<Platform>, lastPlatformX: real, screen: Viewport, d: Draw, now: int): (p: Platform)
    ensures WellShaped(p, screen)
    ensures |ps| == 0 ==> p.y == 300.0 && p.x >= lastPlatformX + MinGap && p.x >= screen.width * 0.3
    ensures |ps| > 0 ==> p.x >= ps[|ps| - 1].Right() + MinGap
    ensures |ps| > 0 ==> p.x <= Max(screen.width * 0.5, ps[|ps| - 1].Right() + MaxGap)
    ensures -1.0 <= p.speed <= 1.0 && 50.0 <= p.moveRange < 150.0 && p.originalX == p.x
    ensures p.direction == 1 || p.direction == -1
    ensures d.moving <= 0.7 ==> p.speed == 0.0
  {
    var width := Max(50.0, 60.0 + d.width * 40.0);
    var x0 := if |ps| == 0 then Max(screen.width * 0.3, lastPlatformX + MinGap)
              else ps[|ps| - 1].Right() + MinGap + d.distance * (MaxGap - MinGap);
    var y := if |ps| == 0 then 300.0 else NextY(ps[|ps| - 1].y, d);
    var x := Max(screen.width * 0.5, x0);
    Platform(x, y, width, PlatformHeight,
      now as real + d.idNoise,
      if d.moving > 0.7 then (d.speed - 0.5) * 2.0 else 0.0,
      if d.direction > 0.5 then 1 else -1,
      50.0 + d.range * 100.0,
      x)
  }

  /** `generatePlatform` on the state: append the new platform and remember its x. */
  function Generate(ps: seq<Platform>, lastPlatformX: real, screen: Viewport, d: Draw, now: int)
    : (r: (seq<Platform>, real))
    ensures |r.0| == |ps| + 1 && r.0[..|ps|] == ps
    ensures r.0[|ps|] == NewPlatform(ps, lastPlatformX, screen, d, now)
    ensures r.1 == r.0[|ps|].x
  {
    var p := NewPlatform(ps, lastPlatformX, screen, d, now);
    (ps + [p], p.x)
  }

  /** The `Math.random()` values the bootstrap spends on its two fixed platforms. */
  datatype BootDraw = BootDraw(firstId: Roll, secondY: Roll, secondWidth: Roll, secondId: Roll)

  /** The state `generateInitialPlatforms` leaves behind. */
  datatype Bootstrap = Bootstrap(platforms: seq<Platform>, lastPlatformX: real, characterX: real, characterY: real)

  /** `generateInitialPlatforms`: a wide friendly first platform with the
      character standing on it, a second one 120 further on, and three generated
      ones. */
  function InitialPlatforms(screen: Viewport, b: BootDraw, draws: seq<Draw>, now: int): (r: Bootstrap)
    requires |draws| == 3
    ensures |r.platforms| == 5
    ensures var first := r.platforms[0];
      && first.x == 80.0 && first.y == 320.0 && first.width == 250.0 && first.height == PlatformHeight
      && r.characterX == first.x + 60.0 && r.characterY + CharacterSize == first.y
    ensures var second := r.platforms[1];
      && second.x == r.platforms[0].Right() + 120.0 && second.height == PlatformHeight
      && 280.0 <= second.y < 340.0 && 80.0 <= second.width < 120.0
    ensures forall i :: 2 <= i < 5 ==>
      WellShaped(r.platforms[i], screen) && r.platforms[i].x >= r.platforms[i - 1].Right() + MinGap
    ensures forall i :: 0 <= i < 5 ==> r.platforms[i].width > 0.0 && r.platforms[i].height > 0.0
    ensures r.lastPlatformX == r.platforms[4].x
  {
    var first := Platform(80.0, 320.0, 250.0, PlatformHeight, now as real + b.firstId, 0.0, 1, 0.0, 80.0);
    var secondX := first.x + first.width + 120.0;
    var second := Platform(secondX, 280.0 + b.secondY * 60.0, 80.0 + b.secondWidth * 40.0, PlatformHeight,
      now as real + b.secondId + 1.0, 0.0, 1, 0.0, secondX);
    var s2 := Generate([first, second], second.Right(), screen, draws[0], now);
    var s3 := Generate(s2.0, s2.1, screen, draws[1], now);
    var s4 := Generate(s3.0, s3.1, screen, draws[2], now);
    Bootstrap(s4.0, s4.1, first.x + 60.0, first.y - CharacterSize)
  }

  /** A platform stays while its right edge is beyond x = -100. */
  predicate Visible(p: Platform) {
    p.Right() > DropEdge
  }

  /** The off-screen filter of `updatePlatforms`. */
  function DropOffscreen(ps: seq<Platform>): (r: seq<Platform>)
    ensures |r| <= |ps|
    ensures (forall i :: 0 <= i < |ps| ==> Visible(ps[i])) ==> r == ps
  {
    if |ps| == 0 then []
    else if Visible(ps[0]) then [ps[0]] + DropOffscreen(ps[1..])
    else DropOffscreen(ps[1..])
  }

  /** The filter keeps exactly the visible platforms. */
  lemma {:induction false} DropOffscreenMembers(ps: seq<Platform>)
    ensures forall p :: p in DropOffscreen(ps) <==> p in ps && Visible(p)
  {
    if |ps| > 0 {
      DropOffscreenMembers(ps[1..]);
      assert forall p :: p in ps <==> p == ps[0] || p in ps[1..];
    }
  }

  /** The filter treats each platform on its own: it keeps a single platform
      exactly when it is visible. */
  lemma DropOffscreenSingle(p: Platform)
    ensures DropOffscreen([p]) == if Visible(p) then [p] else []
  {
  }

  /** Filtering distributes over concatenation, so the kept platforms stay in
      their original order and multiplicity. */
  lemma {:induction false} DropOffscreenConcat(a: seq<Platform>, b: seq<Platform>)
    ensures DropOffscreen(a + b) == DropOffscreen(a) + DropOffscreen(b)
  {
    if |a| == 0 {
      assert a + b == b;
    } else {
      var ab, tail := a + b, a[1..];
      assert ab[0] == a[0];
      assert ab[1..] == tail + b;
      DropOffscreenConcat(tail, b);
      var x, y, z := DropOffscreen(tail), DropOffscreen(b), DropOffscreen(tail + b);
      assert z == x + y;
      if Visible(a[0]) {
        assert DropOffscreen(ab) == [a[0]] + z;
        assert DropOffscreen(a) == [a[0]] + x;
        assert [a[0]] + (x + y) == ([a[0]] + x) + y;
      } else {
        assert DropOffscreen(ab) == z;
        assert DropOffscreen(a) == x;
      }
    }
  }

  /** Rightmost platform edge over a non-empty set (`Math.max(...)`). */
  function MaxRight(ps: seq<Platform>): real
    requires |ps| > 0
  {
    if |ps| == 1 then ps[0].Right() else Max(MaxRight(ps[..|ps| - 1]), ps[|ps| - 1].Right())
  }

  /** The coverage measure, 0 for an empty set as in the source. */
  function Rightmost(ps: seq<Platform>): real {
    if |ps| == 0 then 0.0 else MaxRight(ps)
  }

  /** Appending a platform never lowers the rightmost edge of a non-empty set,
      and the new platform's own edge is covered. */
  lemma RightmostAppend(ps: seq<Platform>, p: Platform)
    ensures |ps| > 0 ==> Rightmost(ps + [p]) >= Rightmost(ps)
    ensures Rightmost(ps + [p]) >= p.Right()
  {
    assert (ps + [p])[..|ps|] == ps;
  }

  /** Every platform's right edge is covered by `MaxRight`. */
  lemma {:induction false} MaxRightCovers(ps: seq<Platform>, i: nat)
    requires i < |ps|
    ensures MaxRight(ps) >= ps[i].Right()
    decreases |ps|
  {
    if i < |ps| - 1 {
      MaxRightCovers(ps[..|ps| - 1], i);
    }
  }

  /** The newly generated platforms from index `from` on all have the generator's
      shape and each keeps the minimum gap to its predecessor. */
  ghost predicate GeneratedFrom(r: seq<Platform>, from: nat, screen: Viewport) {
    forall i :: from <= i < |r| ==> WellShaped(r[i], screen) && (i > 0 ==> r[i].x >= r[i - 1].Right() + MinGap)
  }

  /** `ensurePlatformsContinuity`: keep generating until the set reaches the
      coverage target or holds 8 platforms, then top it up to at least 4.
      Generation call number `k` draws `draws(k)`. */
  method EnsureContinuity(ps: seq<Platform>, lastPlatformX: real, screen: Viewport, draws: nat -> Draw, now: int)
    returns (r: seq<Platform>, lastX: real, used: nat)
    ensures |r| >= MinPlatforms
    ensures Rightmost(r) >= screen.width + CoverageMargin || |r| >= MaxPlatforms
    ensures |ps| >= MaxPlatforms ==> r == ps && lastX == lastPlatformX
    ensures |r| == |ps| + used && r[..|ps|] == ps
    ensures used <= MaxPlatforms
    ensures GeneratedFrom(r, |ps|, screen)
  {
    r, lastX, used := ps, lastPlatformX, 0;
    while Rightmost(r) < screen.width + CoverageMargin && |r| < MaxPlatforms
      invariant |r| == |ps| + used && r[..|ps|] == ps
      invariant used <= MaxPlatforms && (used > 0 ==> |r| <= MaxPlatforms)
      invariant |ps| >= MaxPlatforms ==> used == 0 && lastX == lastPlatformX
      invariant GeneratedFrom(r, |ps|, screen)
      decreases MaxPlatforms - |r|
    {
      var next := Generate(r, lastX, screen, draws(used), now);
      assert next.0[..|ps|] == r[..|ps|];
      r, lastX, used := next.0, next.1, used + 1;
    }
    while |r| < MinPlatforms
      invariant |r| == |ps| + used && r[..|ps|] == ps
      invariant used <= MaxPlatforms
      invariant Rightmost(r) >= screen.width + CoverageMargin || |r| >= MaxPlatforms
      invariant |ps| >= MaxPlatforms ==> used == 0 && lastX == lastPlatformX
      invariant GeneratedFrom(r, |ps|, screen)
      decreases MinPlatforms - |r|
    {
      var next := Generate(r, lastX, screen, draws(used), now);
      assert next.0[..|ps|] == r[..|ps|];
      RightmostAppend(r, next.0[|r|]);
      assert next.0 == r + [next.0[|r|]];
      r, lastX, used := next.0, next.1, used + 1;
    }
  }

  /** One platform's move in `updatePlatforms`: the world scrolls it left by
      `step`; a moving platform is instead placed at `originalX + wave × moveRange`
      when that lies within (-width, screen width + 200). `wave` stands for
      `Math.sin(Date.now() × 0.001 × speed)`. */
  function Move(p: Platform, step: real, screen: Viewport, wave: real): (r: Platform)
    ensures r == p.(x := r.x)
    ensures p.speed == 0.0 ==> r.x == p.x - step
    ensures p.speed != 0.0 && -p.width < p.originalX + wave * p.moveRange < screen.width + 200.0 ==>
      r.x == p.originalX + wave * p.moveRange
    ensures r.x == p.x - step || r.x == p.originalX + wave * p.moveRange
  {
    var scrolled := p.x - step;
    if p.speed != 0.0 then
      var target := p.originalX + wave * p.moveRange;
      if target > -p.width && target < screen.width + 200.0 then p.(x := target) else p.(x := scrolled)
    else p.(x := scrolled)
  }

  /** The move applied to every platform in order; `wave(i)` is the oscillation
      value for platform `i`. */
  function MoveAll(ps: seq<Platform>, step: real, screen: Viewport, wave: nat -> real): (r: seq<Platform>)
    ensures |r| == |ps|
    ensures forall i :: 0 <= i < |ps| ==> r[i] == Move(ps[i], step, screen, wave(i))
  {
    seq(|ps|, i requires 0 <= i < |ps| => Move(ps[i], step, screen, wave(i)))
  }

  /** A moving platform whose oscillation stays in range never drifts with the
      world: its `originalX` is not updated by the scroll, so after any number of
      frames it sits at `originalX` plus the current wave offset. */
  lemma MovingPlatformIgnoresScroll(p: Platform, step1: real, step2: real, screen: Viewport, w1: real, w2: real)
    requires p.speed != 0.0
    requires -p.width < p.originalX + w2 * p.moveRange < screen.width + 200.0
    ensures Move(Move(p, step1, screen, w1), step2, screen, w2).x == p.originalX + w2 * p.moveRange
  {
  }

  /** The game after `updatePlatforms`: moved platforms, the off-screen ones
      dropped, coverage restored, and the speed ramp applied on a positive
      multiple of 100 points. `draws(k)` feeds generation call `k`. */
  method UpdatePlatforms(g: Game, screen: Viewport, wave: nat -> real, draws: nat -> Draw, now: int)
    returns (r: Game, used: nat)
    ensures var kept := DropOffscreen(MoveAll(g.platforms, g.platformSpeed * g.gameSpeed, screen, wave));
      && |r.platforms| == |kept| + used
      && r.platforms[..|kept|] == kept
      && GeneratedFrom(r.platforms, |kept|, screen)
      && (|kept| >= MaxPlatforms ==> used == 0)
    ensures |r.platforms| >= MinPlatforms
    ensures Rightmost(r.platforms) >= screen.width + CoverageMargin || |r.platforms| >= MaxPlatforms
    ensures forall i :: 0 <= i < |r.platforms| ==> Visible(r.platforms[i]) || WellShaped(r.platforms[i], screen)
    ensures g.score > 0 && g.score % 100 == 0 ==>
      r.gameSpeed == g.gameSpeed + 0.1 && r.platformSpeed == g.platformSpeed + 0.05
    ensures !(g.score > 0 && g.score % 100 == 0) ==>
      r.gameSpeed == g.gameSpeed && r.platformSpeed == g.platformSpeed
    ensures r == g.(platforms := r.platforms, lastPlatformX := r.lastPlatformX,
                    gameSpeed := r.gameSpeed, platformSpeed := r.platformSpeed)
  {
    var moved := MoveAll(g.platforms, g.platformSpeed * g.gameSpeed, screen, wave);
    var kept := DropOffscreen(moved);
    DropOffscreenMembers(moved);
    var ps, lastX;
    ps, lastX, used := EnsureContinuity(kept, g.lastPlatformX, screen, draws, now);
    r := g.(platforms := ps, lastPlatformX := lastX);
    if g.score > 0 && g.score % 100 == 0 {
      r := r.(gameSpeed := g.gameSpeed + 0.1, platformSpeed := g.platformSpeed + 0.05);
    }
  }
}

=== FILE: integration.dfy ===
/** The scoring pipeline a finished run goes through: anti-cheat detection,
    then either a secondary validation of a suspicious score or a judgment and
    save of a clean one, and the end-of-game bookkeeping around it. */
module Integration {
  import opened Common
  import opened Entities
  import opened AntiCheat
  import opened Judgment
  import opened Ranking
  import opened Logger

  /** What the pipeline writes to the event log. */
  datatype Event =
    | ScoreSubmitted(playerId: string, score: int, judgment: Result, detection: Detection)
    | SuspiciousScore(playerId: string, score: int, violations: seq<Violation>, risk: Risk)

  /** The services' state. The leaderboard, the personal best, the nickname and
      the games-played counter are the values held in the dual store under
      `jumpGameRanking`, `personal_best_<id>`, `jumpGamePlayerName` and
      `games_played`. */
  datatype Services = Services(
    playerId: string,
    suspicions: SuspicionLog,
    baselines: Baselines,
    log: Log<Event>,
    ranking: seq<Entry>,
    personalBest: Option<int>,
    nickname: Option<string>,
    gamesPlayed: Option<int>)

  /** What a finished run submits. */
  datatype Submission = Submission(score: int, evidence: Evidence, attempt: Attempt)

  /** `performSecondaryValidation`'s answer. */
  datatype SecondCheck = SecondCheck(isValid: bool, baseline: Validation, risk: Risk, timestamp: int)

  /** The three ways a submission ends. */
  datatype Outcome =
    | Accepted(score: int, judgment: Result, detection: Detection, newBest: bool)
    | Monitored(score: int, detection: Detection, check: SecondCheck)
    | Rejected(score: int, detection: Detection, check: SecondCheck)
  {
    /** The `success` flag of the result. */
    predicate Success() { !Rejected? }
  }

  /** `getPlayerSkill().level`: one level per ten games, from 1; a missing counter
      reads as 0. */
  function PlayerLevel(gamesPlayed: Option<int>): (level: int)
    ensures var n := gamesPlayed.GetOr(0); (level - 1) * 10 <= n < level * 10
  {
    gamesPlayed.GetOr(0) / 10 + 1
  }

  /** Nothing in the pipeline writes the games-played counter, so every player
      is judged at level 1. */
  lemma FreshPlayerIsLevelOne()
    ensures PlayerLevel(None) == 1
    ensures DynamicThresholds(Some(PlayerLevel(None) as real)) == BaseThresholds
  {
  }

  /** `performSecondaryValidation`: the baseline check and a non-critical risk. */
  function SecondaryValidation(m: Baselines, player: string, score: int, risk: Risk, now: int): (c: SecondCheck)
    ensures c.isValid <==> ValidateScore(m, player, score).isValid && risk != Critical
    ensures c.baseline == ValidateScore(m, player, score) && c.risk == risk
  {
    var v := ValidateScore(m, player, score);
    SecondCheck(v.isValid && risk != Critical, v, risk, now)
  }

  /** A critical-risk submission never survives the second check. */
  lemma CriticalAlwaysRejected(m: Baselines, player: string, score: int, now: int)
    ensures !SecondaryValidation(m, player, score, Critical, now).isValid
  {
  }

  /** `savePersonalBest`: store the score when it beats the stored best, which
      reads as 0 when absent. */
  function SavePersonalBest(best: Option<int>, score: int): (r: (Option<int>, bool))
    ensures r.1 <==> score > best.GetOr(0)
    ensures r.1 ==> r.0 == Some(score)
    ensures !r.1 ==> r.0 == best
  {
    if score > best.GetOr(0) then (Some(score), true) else (best, false)
  }

  /** The stored best only rises, and always covers the latest score. */
  lemma PersonalBestIsMaximum(best: Option<int>, score: int)
    ensures SavePersonalBest(best, score).0.GetOr(0) == MaxInt(best.GetOr(0), score)
  {
  }

  /** `processGameScore`. `minted` stands for a fresh session id, `sqrt` and
      `accel` for the judgment's numeric helpers. */
  method ProcessGameScore(s: Services, sub: Submission, now: int, minted: string,
                          sqrt: Sqrt, accel: (Sample, Sample) -> real)
    returns (r: Services, o: Outcome)
    ensures var d := DetectCheating(s.suspicions, s.playerId, sub.score, sub.evidence, now);
      && r.suspicions == d.0
      && o.detection == d.1
      && (o.Accepted? <==> !d.1.isCheating)
      && (o.Rejected? <==> d.1.isCheating && !(ValidateScore(s.baselines, s.playerId, sub.score).isValid && d.1.risk != Critical))
    ensures o.score == sub.score
    ensures o.Accepted? ==> JudgmentOf(sub.attempt, sqrt, accel, o.judgment)
    ensures o.Accepted? ==> r.ranking == SaveToRanking(s.ranking, PlayerName(s.nickname), sub.score, now)
    ensures o.Accepted? ==> (r.personalBest, o.newBest) == SavePersonalBest(s.personalBest, sub.score)
    ensures !o.Accepted? ==> r.ranking == s.ranking && r.personalBest == s.personalBest
    ensures r.playerId == s.playerId && r.baselines == s.baselines && r.nickname == s.nickname && r.gamesPlayed == s.gamesPlayed
    // exactly one event is logged
    ensures o.Accepted? ==>
      r.log == LogEvent(s.log, "score_submitted", ScoreSubmitted(s.playerId, sub.score, o.judgment, o.detection), now, minted)
    ensures !o.Accepted? ==>
      r.log == LogEvent(s.log, "suspicious_score_detected",
                        SuspiciousScore(s.playerId, sub.score, o.detection.violations, o.detection.risk), now, minted)
    // a flagged submission carries the second check's own record
    ensures !o.Accepted? ==> o.check == SecondaryValidation(s.baselines, s.playerId, sub.score, o.detection.risk, now)
  {
    var (suspicions, d) := DetectCheating(s.suspicions, s.playerId, sub.score, sub.evidence, now);
    if d.isCheating {
      var log := LogEvent(s.log, "suspicious_score_detected",
                          SuspiciousScore(s.playerId, sub.score, d.violations, d.risk), now, minted);
      var c := SecondaryValidation(s.baselines, s.playerId, sub.score, d.risk, now);
      r := s.(suspicions := suspicions, log := log);
      o := if c.isValid then Monitored(sub.score, d, c) else Rejected(sub.score, d, c);
      return;
    }
    r, o := AcceptScore(s.(suspicions := suspicions), sub, d, now, minted, sqrt, accel);
  }

  /** The accepted path of `processGameScore`: judge at the player's level, log
      the submission, then save to the leaderboard and the personal best. */
  method AcceptScore(s: Services, sub: Submission, d: Detection, now: int, minted: string,
                     sqrt: Sqrt, accel: (Sample, Sample) -> real)
    returns (r: Services, o: Outcome)
    ensures o.Accepted? && o.score == sub.score && o.detection == d
    ensures JudgmentOf(sub.attempt, sqrt, accel, o.judgment)
    ensures r.log == LogEvent(s.log, "score_submitted", ScoreSubmitted(s.playerId, sub.score, o.judgment, d), now, minted)
    ensures r.ranking == SaveToRanking(s.ranking, PlayerName(s.nickname), sub.score, now)
    ensures (r.personalBest, o.newBest) == SavePersonalBest(s.personalBest, sub.score)
    ensures r == s.(log := r.log, ranking := r.ranking, personalBest := r.personalBest)
  {
    var j := Judge(sub.attempt, Some(PlayerLevel(s.gamesPlayed) as real), sqrt, accel);
    var log := LogEvent(s.log, "score_submitted", ScoreSubmitted(s.playerId, sub.score, j, d), now, minted);
    var ranking := SaveToRanking(s.ranking, PlayerName(s.nickname), sub.score, now);
    var (best, isNew) := SavePersonalBest(s.personalBest, sub.score);
    r := s.(log := log, ranking := ranking, personalBest := best);
    o := Accepted(sub.score, j, d, isNew);
  }

  /** The telemetry `gameOver` hands to the pipeline: the last jump's numbers,
      the perfect-landing count as the streak. */
  function EvidenceOf(g: Game): (e: Evidence)
    ensures e.perfectStreak == g.perfectCount
    ensures e.reactionTime == g.jumpData.reactionTime && e.positionDelta == g.jumpData.positionDelta
  {
    Evidence(g.jumpData.reactionTime, g.jumpData.positionDelta, g.perfectCount)
  }

  /** `getLastPlatformPosition`: the top centre of the newest platform, the
      origin when there is none. */
  function LastPlatformPosition(ps: seq<Platform>): (p: Point)
    ensures |ps| == 0 ==> p == Point(0.0, 0.0)
    ensures |ps| > 0 ==> p == Point(ps[|ps| - 1].Center(), ps[|ps| - 1].y)
  {
    if |ps| == 0 then Point(0.0, 0.0) else Point(ps[|ps| - 1].Center(), ps[|ps| - 1].y)
  }

  /** The judgment inputs `gameOver` builds from the run. */
  function AttemptOf(g: Game): (a: Attempt)
    ensures a.player == Point(g.character.x, g.character.y)
    ensures a.target == LastPlatformPosition(g.platforms)
    ensures a.trajectory == g.jumpData.trajectory
  {
    Attempt(Point(g.character.x, g.character.y), LastPlatformPosition(g.platforms),
            g.jumpData.optimalTiming, g.jumpData.actualTiming, g.jumpData.trajectory,
            g.jumpData.landingVx, g.jumpData.landingVy, g.jumpData.landingAngle)
  }

  /** What a finished game feeds into the player's baseline. */
  function SessionOf(g: Game): Session {
    Session(g.score as real, g.jumpData.reactionTime as real)
  }

  /** The baseline bookkeeping of `gameOver` as written: the same finished game
      is folded into the baseline twice, once after the leaderboard update and
      once after the statistics are saved. */
  function BaselinesAfterGameAsWritten(m: Baselines, player: string, s: Session, now: int, sqrt: Sqrt): (r: Baselines)
    ensures r.Keys == m.Keys + {player}
    ensures r[player].gamesPlayed == (if player in m then m[player].gamesPlayed else 0) + 2
  {
    UpdateBehaviorBaseline(UpdateBehaviorBaseline(m, player, s, now, sqrt), player, s, now, sqrt)
  }

  /** Counted twice per game, three games are enough to leave the "insufficient
      data" state that should take five. */
  lemma ThreeGamesArmValidationAsWritten(m: Baselines, player: string, s: Session, now: int, sqrt: Sqrt, score: int)
    requires player !in m
    ensures var m3 := BaselinesAfterGameAsWritten(BaselinesAfterGameAsWritten(BaselinesAfterGameAsWritten(
                        m, player, s, now, sqrt), player, s, now, sqrt), player, s, now, sqrt);
      m3[player].gamesPlayed == 6 && ValidateScore(m3, player, score).reason != InsufficientData
  {
  }

  /** Each finished game folded into the baseline once. */
  function BaselinesAfterGame(m: Baselines, player: string, s: Session, now: int, sqrt: Sqrt): (r: Baselines)
    ensures r.Keys == m.Keys + {player}
    ensures forall p :: p in m && p != player ==> r[p] == m[p]
    ensures r[player] == UpdateBaseline(if player in m then m[player] else FreshBaseline, s, now, sqrt)
  {
    UpdateBehaviorBaseline(m, player, s, now, sqrt)
  }

  /** The baselines after a sequence of finished games, oldest first. */
  function AfterGames(m: Baselines, player: string, ss: seq<Session>, now: int, sqrt: Sqrt): Baselines {
    if |ss| == 0 then m
    else BaselinesAfterGame(AfterGames(m, player, ss[..|ss| - 1], now, sqrt), player, ss[|ss| - 1], now, sqrt)
  }

  /** Folding each game in once, a new player's baseline counts exactly the
      games played and averages their scores. */
  lemma {:induction false} GamesCountedOnce(m: Baselines, player: string, ss: seq<Session>, now: int, sqrt: Sqrt)
    requires player !in m && |ss| > 0
    ensures player in AfterGames(m, player, ss, now, sqrt)
    ensures AfterGames(m, player, ss, now, sqrt)[player] == BaselineAfter(ss, now, sqrt)
    ensures AfterGames(m, player, ss, now, sqrt)[player].gamesPlayed == |ss|
    ensures AfterGames(m, player, ss, now, sqrt)[player].avgScore == Sum(ss) / |ss| as real
  {
    var prefix := ss[..|ss| - 1];
    if |prefix| > 0 {
      GamesCountedOnce(m, player, prefix, now, sqrt);
    } else {
      assert AfterGames(m, player, prefix, now, sqrt) == m;
    }
    BaselineIsMean(ss, now, sqrt);
  }

  /** `gameOver` after the run has stopped: submit the score, merge it into the
      game's own leaderboard `board` unless it was rejected, fold the game into
      the baseline once, and work out the "beaten" percentage, from the
      services' leaderboard when it has rows and from `board` otherwise. */
  method GameOver(s: Services, board: seq<Entry>, g: Game, now: int, minted: string,
                  sqrt: Sqrt, accel: (Sample, Sample) -> real)
    returns (r: Services, newBoard: seq<Entry>, o: Outcome, beaten: int)
    ensures o.score == g.score
    ensures var d := DetectCheating(s.suspicions, s.playerId, g.score, EvidenceOf(g), now).1;
      && o.detection == d
      && (o.Accepted? <==> !d.isCheating)
      && (o.Rejected? <==> d.isCheating && !(ValidateScore(s.baselines, s.playerId, g.score).isValid && d.risk != Critical))
    ensures !o.Accepted? ==> o.check == SecondaryValidation(s.baselines, s.playerId, g.score, o.detection.risk, now)
    ensures r.suspicions == DetectCheating(s.suspicions, s.playerId, g.score, EvidenceOf(g), now).0
    ensures o.Accepted? ==> JudgmentOf(AttemptOf(g), sqrt, accel, o.judgment)
    ensures o.Accepted? ==> r.ranking == SaveToRanking(s.ranking, PlayerName(s.nickname), g.score, now)
    ensures o.Accepted? ==> (r.personalBest, o.newBest) == SavePersonalBest(s.personalBest, g.score)
    ensures !o.Accepted? ==> r.ranking == s.ranking && r.personalBest == s.personalBest
    ensures r.playerId == s.playerId && r.nickname == s.nickname && r.gamesPlayed == s.gamesPlayed
    ensures o.Accepted? ==>
      r.log == LogEvent(s.log, "score_submitted", ScoreSubmitted(s.playerId, g.score, o.judgment, o.detection), now, minted)
    ensures !o.Accepted? ==>
      r.log == LogEvent(s.log, "suspicious_score_detected",
                        SuspiciousScore(s.playerId, g.score, o.detection.violations, o.detection.risk), now, minted)
    ensures o.Success() ==> newBoard == UpdateRanking(board, s.nickname, g.score, now)
    ensures !o.Success() ==> newBoard == board
    ensures r.baselines == BaselinesAfterGame(s.baselines, s.playerId, SessionOf(g), now, sqrt)
    ensures r.baselines[s.playerId].gamesPlayed == (if s.playerId in s.baselines then s.baselines[s.playerId].gamesPlayed else 0) + 1
    ensures beaten == BeatPercentage(if |r.ranking| > 0 then r.ranking else newBoard, g.score)
    ensures 0 <= beaten <= 100
  {
    var sub := Submission(g.score, EvidenceOf(g), AttemptOf(g));
    r, o := ProcessGameScore(s, sub, now, minted, sqrt, accel);
    newBoard := if o.Success() then UpdateRanking(board, s.nickname, g.score, now) else board;
    r := r.(baselines := BaselinesAfterGame(r.baselines, s.playerId, SessionOf(g), now, sqrt));
    beaten := BeatPercentage(if |r.ranking| > 0 then r.ranking else newBoard, g.score);
  }
}

=== FILE: judgment.dfy ===
/** The four-dimension judgment of a finished run: position, timing,
    trajectory smoothness and landing stability, each normalised to [0, 1], a
    weighted composite, a label from fixed bands, and a confidence. */
module Judgment {
  import opened Common
  import opened Entities

  const PositionWeight: real := 0.4
  const TimingWeight: real := 0.3
  const SmoothnessWeight: real := 0.2
  const StabilityWeight: real := 0.1

  /** Distances and differences at which each dimension drops to 0. */
  const MaxDistance: real := 50.0
  const MaxTimingDiff: real := 200.0
  const MaxJerk: real := 100.0
  const MaxLandingSpeed: real := 200.0
  const MaxLandingAngle: real := 45.0

  /** Smoothness of a flight too short to measure. */
  const DefaultSmoothness: real := 0.5

  /** A score in [0, 1]. */
  type Unit = r: real | 0.0 <= r <= 1.0

  /** `min(1, max(0, 1 - value / limit))` for a non-negative value. */
  function Falloff(value: NonNeg, limit: real): (r: Unit)
    requires limit > 0.0
    ensures value == 0.0 ==> r == 1.0
    ensures value >= limit ==> r == 0.0
    ensures value < limit ==> r == 1.0 - value / limit
  {
    Min(1.0, Max(0.0, 1.0 - value / limit))
  }

  /** A falloff never rises as the measured quantity grows. */
  lemma FalloffMonotone(a: NonNeg, b: NonNeg, limit: real)
    requires limit > 0.0 && a <= b
    ensures Falloff(b, limit) <= Falloff(a, limit)
  {
    assert a / limit <= b / limit;
  }

  datatype Point = Point(x: real, y: real)

  /** `Math.sqrt(dx² + dy²)`, with `sqrt` for `Math.sqrt`. */
  function Distance(a: Point, b: Point, sqrt: Sqrt): NonNeg {
    sqrt((a.x - b.x) * (a.x - b.x) + (a.y - b.y) * (a.y - b.y))
  }

  /** `calculatePositionAccuracy`: full marks on target, none from 50 away. */
  function PositionAccuracy(player: Point, target: Point, sqrt: Sqrt): (r: Unit)
    ensures Distance(player, target, sqrt) == 0.0 ==> r == 1.0
    ensures Distance(player, target, sqrt) >= MaxDistance ==> r == 0.0
    ensures Distance(player, target, sqrt) < MaxDistance ==> r == 1.0 - Distance(player, target, sqrt) / MaxDistance
  {
    Falloff(Distance(player, target, sqrt), MaxDistance)
  }

  /** `calculateTimingPrecision`. */
  function TimingPrecision(optimalTiming: int, actualTiming: int): (r: Unit)
    ensures actualTiming == optimalTiming ==> r == 1.0
    ensures Abs((actualTiming - optimalTiming) as real) >= MaxTimingDiff ==> r == 0.0
    ensures Abs((actualTiming - optimalTiming) as real) < MaxTimingDiff ==>
      r == 1.0 - Abs((actualTiming - optimalTiming) as real) / MaxTimingDiff
  {
    Falloff(Abs((actualTiming - optimalTiming) as real), MaxTimingDiff)
  }

  /** The score one window of three samples contributes to smoothness. */
  function WindowScore(t: seq<Sample>, i: nat, accel: (Sample, Sample) -> real): (r: Unit)
    requires 2 <= i < |t|
  {
    var jerk := Abs(accel(t[i - 1], t[i]) - accel(t[i - 2], t[i - 1]));
    Max(0.0, 1.0 - jerk / MaxJerk)
  }

  /** Sum of the window scores for windows ending at 2 .. k - 1. */
  function WindowSum(t: seq<Sample>, k: nat, accel: (Sample, Sample) -> real): (s: real)
    requires 2 <= k <= |t|
    ensures 0.0 <= s <= (k - 2) as real
    decreases k
  {
    if k == 2 then 0.0 else WindowSum(t, k - 1, accel) + WindowScore(t, k - 1, accel)
  }

  /** `calculateTrajectorySmoothness`: the mean window score over the flight, 0.5
      for fewer than three samples. `accel` stands for `calculateAcceleration`. */
  method Smoothness(t: seq<Sample>, accel: (Sample, Sample) -> real) returns (r: Unit)
    ensures |t| < 3 ==> r == DefaultSmoothness
    ensures |t| >= 3 ==> r == WindowSum(t, |t|, accel) / (|t| - 2) as real
  {
    if |t| < 3 {
      return DefaultSmoothness;
    }
    var total := SumWindows(t, accel);
    var n := (|t| - 2) as real;
    MeanInUnit(total, n);
    r := total / n;
  }

  /** The sum of the window scores of a flight of at least three samples. */
  method SumWindows(t: seq<Sample>, accel: (Sample, Sample) -> real) returns (total: real)
    requires |t| >= 3
    ensures total == WindowSum(t, |t|, accel)
  {
    total := 0.0;
    var i := 2;
    while i < |t|
      invariant 2 <= i <= |t|
      invariant total == WindowSum(t, i, accel)
    {
      total := total + WindowScore(t, i, accel);
      i := i + 1;
    }
  }

  /** `calculateLandingStability`: 70% speed, 30% angle. */
  function LandingStability(vx: real, vy: real, angle: real, sqrt: Sqrt): (r: Unit)
    ensures vx == 0.0 && vy == 0.0 && angle == 0.0 && sqrt(0.0) == 0.0 ==> r == 1.0
    ensures Abs(angle) >= MaxLandingAngle ==> r <= 0.7
  {
    var speed := Max(0.0, 1.0 - sqrt(vx * vx + vy * vy) / MaxLandingSpeed);
    var tilt := Max(0.0, 1.0 - Abs(angle) / MaxLandingAngle);
    speed * 0.7 + tilt * 0.3
  }

  /** The weighted composite; the weights sum to 1. */
  function Composite(position: Unit, timing: Unit, smoothness: Unit, stability: Unit): (c: Unit)
    ensures position == timing == smoothness == stability ==> c == position
  {
    position * PositionWeight + timing * TimingWeight + smoothness * SmoothnessWeight + stability * StabilityWeight
  }

  /** Per-level judgment ranges in pixels; not consulted by the label. */
  datatype Thresholds = Thresholds(perfect: real, excellent: real, good: real, acceptable: real)

  const BaseThresholds: Thresholds := Thresholds(5.0, 10.0, 15.0, 20.0)

  /** `playerSkill.level || 1`: a missing or zero level counts as 1. */
  function SkillLevel(level: Option<real>): (l: real)
    ensures level.Some? && level.value != 0.0 ==> l == level.value
    ensures level.None? || level.value == 0.0 ==> l == 1.0
  {
    if level.Some? && level.value != 0.0 then level.value else 1.0
  }

  /** `getDynamicThresholds`: ranges shrink by 5% per level above 1, to at most 20% off. */
  function DynamicThresholds(level: Option<real>): (t: Thresholds)
    ensures SkillLevel(level) == 1.0 ==> t == BaseThresholds
    ensures t.excellent == 2.0 * t.perfect && t.good == 3.0 * t.perfect && t.acceptable == 4.0 * t.perfect
    ensures 1.0 <= SkillLevel(level) <= 5.0 ==> t.perfect == 5.0 - 0.25 * (SkillLevel(level) - 1.0)
    ensures SkillLevel(level) >= 5.0 ==> t == Thresholds(4.0, 8.0, 12.0, 16.0)
    ensures SkillLevel(level) >= 1.0 ==> t.perfect <= BaseThresholds.perfect && t.acceptable <= BaseThresholds.acceptable
    ensures 0.0 < t.perfect < t.excellent < t.good < t.acceptable
  {
    var m := Max(0.8, 1.0 - (SkillLevel(level) - 1.0) * 0.05);
    Thresholds(BaseThresholds.perfect * m, BaseThresholds.excellent * m,
               BaseThresholds.good * m, BaseThresholds.acceptable * m)
  }

  datatype Rating = Perfect | Excellent | Good | Acceptable | Missed

  function RatingRank(r: Rating): nat {
    match r
    case Missed => 0
    case Acceptable => 1
    case Good => 2
    case Excellent => 3
    case Perfect => 4
  }

  /** `makeJudgment`: fixed bands; the thresholds argument is accepted and ignored. */
  function MakeJudgment(composite: real, thresholds: Thresholds): (r: Rating)
    ensures r == Perfect <==> composite >= 0.95
    ensures r == Missed <==> composite < 0.7
    ensures r == Excellent <==> 0.9 <= composite < 0.95
    ensures r == Good <==> 0.8 <= composite < 0.9
    ensures r == Acceptable <==> 0.7 <= composite < 0.8
  {
    if composite >= 0.95 then Perfect
    else if composite >= 0.9 then Excellent
    else if composite >= 0.8 then Good
    else if composite >= 0.7 then Acceptable
    else Missed
  }

  /** The label does not depend on the skill level. */
  lemma ThresholdsIgnored(composite: real, a: Option<real>, b: Option<real>)
    ensures MakeJudgment(composite, DynamicThresholds(a)) == MakeJudgment(composite, DynamicThresholds(b))
  {
  }

  /** A higher composite never earns a lower label. */
  lemma JudgmentMonotone(c1: real, c2: real, t: Thresholds)
    requires c1 <= c2
    ensures RatingRank(MakeJudgment(c1, t)) <= RatingRank(MakeJudgment(c2, t))
  {
  }

  /** The composite each label is centred on for the confidence. */
  function BaseConfidence(r: Rating): real {
    match r
    case Perfect => 0.95
    case Excellent => 0.9
    case Good => 0.8
    case Acceptable => 0.7
    case Missed => 0.3
  }

  /** `calculateConfidence`: 1 minus the distance to the label's centre, at least 0.1. */
  function Confidence(composite: real, r: Rating): (c: real)
    ensures 0.1 <= c <= 1.0
    ensures c == 1.0 <==> composite == BaseConfidence(r)
    ensures Abs(composite - BaseConfidence(r)) <= 0.9 ==> c == 1.0 - Abs(composite - BaseConfidence(r))
    ensures Abs(composite - BaseConfidence(r)) >= 0.9 ==> c == 0.1
  {
    Max(0.1, 1.0 - Abs(composite - BaseConfidence(r)))
  }

  /** A composite in [0, 1] judged by its own label is always more than 60% confident. */
  lemma ConfidenceFloor(composite: Unit)
    ensures Confidence(composite, MakeJudgment(composite, BaseThresholds)) > 0.6
  {
  }

  /** What `multiDimensionalJudgment` reads from a run. */
  datatype Attempt = Attempt(
    player: Point, target: Point,
    optimalTiming: int, actualTiming: int,
    trajectory: seq<Sample>,
    landingVx: real, landingVy: real, landingAngle: real)

  datatype Dimensions = Dimensions(position: Unit, timing: Unit, smoothness: Unit, stability: Unit)

  datatype Result = Result(composite: Unit, dimensions: Dimensions, rating: Rating, confidence: real)

  /** The judgment `multiDimensionalJudgment` gives attempt `a`: each dimension
      from its own scorer, their weighted composite, the label by the base
      bands and the confidence in that label. */
  ghost predicate JudgmentOf(a: Attempt, sqrt: Sqrt, accel: (Sample, Sample) -> real, r: Result) {
    && r.dimensions.position == PositionAccuracy(a.player, a.target, sqrt)
    && r.dimensions.timing == TimingPrecision(a.optimalTiming, a.actualTiming)
    && (|a.trajectory| < 3 ==> r.dimensions.smoothness == DefaultSmoothness)
    && (|a.trajectory| >= 3 ==>
         r.dimensions.smoothness == WindowSum(a.trajectory, |a.trajectory|, accel) / (|a.trajectory| - 2) as real)
    && r.dimensions.stability == LandingStability(a.landingVx, a.landingVy, a.landingAngle, sqrt)
    && r.composite == Composite(r.dimensions.position, r.dimensions.timing, r.dimensions.smoothness, r.dimensions.stability)
    && r.rating == MakeJudgment(r.composite, BaseThresholds)
    && r.confidence == Confidence(r.composite, r.rating)
  }

  /** `multiDimensionalJudgment`. */
  method Judge(a: Attempt, level: Option<real>, sqrt: Sqrt, accel: (Sample, Sample) -> real) returns (r: Result)
    ensures JudgmentOf(a, sqrt, accel, r)
    ensures 0.1 <= r.confidence <= 1.0
  {
    var p := PositionAccuracy(a.player, a.target, sqrt);
    var t := TimingPrecision(a.optimalTiming, a.actualTiming);
    var s := Smoothness(a.trajectory, accel);
    var l := LandingStability(a.landingVx, a.landingVy, a.landingAngle, sqrt);
    var c := Composite(p, t, s, l);
    var rating := MakeJudgment(c, DynamicThresholds(level));
    ThresholdsIgnored(c, level, None);
    assert DynamicThresholds(None) == BaseThresholds;
    r := Result(c, Dimensions(p, t, s, l), rating, Confidence(c, rating));
  }
}

=== FILE: language.dfy ===
/** Interface language: which languages exist, switching, and how a text key
    is looked up with fallbacks. */
module Language {
  import opened Common

  const Supported: seq<string> := ["zh-CN", "en-US", "ja-JP", "ko-KR"]

  /** The default language and the one every lookup falls back to. */
  const FallbackLanguage: string := "zh-CN"

  /** `isSupportedLanguage`: exact match against the four codes. */
  predicate IsSupported(lang: string) {
    lang in Supported
  }

  /** Per-language tables of key to text. */
  type Table = map<string, map<string, string>>

  /** The language state; `preferred` is the persisted `preferred_language`. */
  datatype Lang = Lang(current: string, table: Table, preferred: Option<string>)

  /** `setLanguage` (the second of the two definitions in the class, which is the
      one in effect): switch and persist when the code is supported, otherwise
      change nothing. */
  function SetLanguage(l: Lang, lang: string): (r: (Lang, bool))
    ensures r.1 <==> IsSupported(lang)
    ensures r.1 ==> r.0 == l.(current := lang, preferred := Some(lang))
    ensures !r.1 ==> r.0 == l
  {
    if IsSupported(lang) then (l.(current := lang, preferred := Some(lang)), true)
    else (l, false)
  }

  /** Switching keeps the current language supported. */
  lemma SetLanguageKeepsSupported(l: Lang, lang: string)
    requires IsSupported(l.current)
    ensures IsSupported(SetLanguage(l, lang).0.current)
  {
  }

  /** A table's text for `key`, counting a missing table, a missing key and the
      empty text alike as absent (JavaScript's `||` skips all three). */
  function Entry(t: Table, lang: string, key: string): (r: Option<string>)
    ensures r.Some? <==> lang in t && key in t[lang] && t[lang][key] != ""
    ensures r.Some? ==> r.value == t[lang][key]
  {
    if lang in t && key in t[lang] && t[lang][key] != "" then Some(t[lang][key]) else None
  }

  /** `translate`: the current language's text, else the fallback language's,
      else the caller's fallback when non-empty, else the key itself. */
  function Translate(l: Lang, key: string, fallback: Option<string>): (r: string)
    ensures Entry(l.table, l.current, key).Some? ==> r == Entry(l.table, l.current, key).value
    ensures Entry(l.table, l.current, key).None? && Entry(l.table, FallbackLanguage, key).Some? ==>
      r == Entry(l.table, FallbackLanguage, key).value
    ensures Entry(l.table, l.current, key).None? && Entry(l.table, FallbackLanguage, key).None? ==>
      r == (if fallback.Some? && fallback.value != "" then fallback.value else key)
    ensures r == key || r == fallback.GetOr("") || exists lang :: lang in l.table && key in l.table[lang] && r == l.table[lang][key]
  {
    var mine := Entry(l.table, l.current, key);
    var common := Entry(l.table, FallbackLanguage, key);
    if mine.Some? then mine.value
    else if common.Some? then common.value
    else if fallback.Some? && fallback.value != "" then fallback.value
    else key
  }

  /** A translation is never empty unless the key itself is. */
  lemma TranslateNonEmpty(l: Lang, key: string, fallback: Option<string>)
    requires key != ""
    ensures Translate(l, key, fallback) != ""
  {
  }

  /** A key no table knows comes back as the caller's fallback or, without one, as itself. */
  lemma UnknownKeyEchoed(l: Lang, key: string, fallback: Option<string>)
    requires forall lang :: lang in l.table ==> key !in l.table[lang]
    ensures Translate(l, key, fallback) == (if fallback.Some? && fallback.value != "" then fallback.value else key)
  {
  }
}

=== FILE: launch.dfy ===
/** Charging and releasing a jump: power accumulates while the button is held
    and is converted into a launch velocity on release. */
module Launch {
  import opened Common
  import opened Entities

  /** The normalised charge `min(power, 150) / 100`. */
  function ChargeRatio(power: real): real {
    Min(power, MaxPower) / 100.0
  }

  /** Horizontal launch speed before any inherited platform speed. */
  function BaseLaunchVx(power: real): real {
    (50.0 + ChargeRatio(power) * 200.0) / 20.0
  }

  /** One frame of `chargePower`: while charging, power grows by 2 and saturates at 150. */
  function ChargePower(g: Game): (r: Game)
    ensures !g.isCharging ==> r == g
    ensures g.isCharging && g.power + 2.0 <= MaxPower ==> r.power == g.power + 2.0
    ensures g.isCharging && g.power + 2.0 > MaxPower ==> r.power == MaxPower
    ensures 0.0 <= g.power <= MaxPower ==> 0.0 <= r.power <= MaxPower
    ensures r == g.(power := r.power)
  {
    if !g.isCharging then g else g.(power := Min(g.power + 2.0, MaxPower))
  }

  /** `startCharging`: ignored unless a run is playing, the character stands
      still and no charge is in progress; otherwise power restarts from 0 and the
      first charge frame runs at once. */
  function StartCharging(g: Game): (r: Game)
    ensures !g.isPlaying || g.character.isJumping || g.isCharging ==> r == g
    ensures g.isPlaying && !g.character.isJumping && !g.isCharging ==>
      r.isCharging && r.power == 2.0 && r == g.(isCharging := true, power := 2.0)
  {
    if !g.isPlaying || g.character.isJumping || g.isCharging then g
    else ChargePower(g.(isCharging := true, power := 0.0))
  }

  /** `n` further animation frames of charging. */
  function ChargeFrames(g: Game, n: nat): Game
    decreases n
  {
    if n == 0 then g else ChargeFrames(ChargePower(g), n - 1)
  }

  /** Holding the button for `n` frames after the press yields power
      `min(2 (n + 1), 150)`: power is a saturating counter. */
  lemma HeldPower(g: Game, n: nat)
    requires g.isPlaying && !g.character.isJumping && !g.isCharging
    ensures ChargeFrames(StartCharging(g), n).power == Min(2.0 * (n as real + 1.0), MaxPower)
    ensures ChargeFrames(StartCharging(g), n).isCharging
  {
    HeldPowerFrom(StartCharging(g), n, 1);
  }

  lemma {:induction false} HeldPowerFrom(g: Game, n: nat, k: nat)
    requires g.isCharging && g.power == Min(2.0 * k as real, MaxPower)
    ensures ChargeFrames(g, n).power == Min(2.0 * (n + k) as real, MaxPower)
    ensures ChargeFrames(g, n).isCharging
    decreases n
  {
    if n > 0 {
      HeldPowerFrom(ChargePower(g), n - 1, k + 1);
    }
  }

  /** Speed inherited from the attached platform (`speed || 0`). A platform that
      has already left the active set contributes nothing. */
  function InheritedSpeed(g: Game): real {
    match g.attached
    case None => 0.0
    case Some(id) =>
      match FindPlatform(g.platforms, id)
      case None => 0.0
      case Some(i) => g.platforms[i].speed
  }

  /** `jump` (release). `sinPi(r)` stands for `Math.sin(r * Math.PI)`; `now` for
      `Date.now()`. */
  function Jump(g: Game, now: int, sinPi: real -> real): (r: Game)
    ensures !g.isCharging || g.character.isJumping ==> r == g
    ensures g.isCharging && !g.character.isJumping ==>
      var ratio := Min(g.power, MaxPower) / 100.0;
      && r.character.vx == (50.0 + ratio * 200.0) / 20.0 + InheritedSpeed(g)
      && r.character.vy == -sinPi(ratio) * 15.0
      && r.character.isJumping
      && r.character.x == g.character.x && r.character.y == g.character.y
      && !r.isCharging && r.power == 0.0
      && r.attached.None?
      && (g.attached.Some? ==> r.attachmentOffset == 0.0)
      && r.jumpData.trajectory == []
      && r.jumpData.reactionTime == now - g.lastJumpTime
      && r.gameStartTime == (if g.gameStartTime == 0 then now else g.gameStartTime)
      && r.score == g.score && r.combo == g.combo && r.platforms == g.platforms
  {
    if !g.isCharging || g.character.isJumping then g
    else
      var ratio := ChargeRatio(g.power);
      var c := g.character.(
        vx := BaseLaunchVx(g.power) + InheritedSpeed(g),
        vy := -sinPi(ratio) * 15.0,
        isJumping := true);
      g.(
        isCharging := false,
        power := 0.0,
        character := c,
        attached := None,
        attachmentOffset := if g.attached.Some? then 0.0 else g.attachmentOffset,
        jumpData := g.jumpData.(reactionTime := now - g.lastJumpTime, trajectory := []),
        gameStartTime := if g.gameStartTime != 0 then g.gameStartTime else now)
  }

  /** A second release in the same state does nothing: the first one has already
      cleared the charge and put the character in the air. */
  lemma JumpIdempotent(g: Game, now: int, later: int, sinPi: real -> real)
    ensures Jump(Jump(g, now, sinPi), later, sinPi) == Jump(g, now, sinPi)
  {
  }

  /** Over the whole charge range the base horizontal speed lies in [2.5, 17.5]
      and never decreases as power grows (unlike the vertical component). */
  lemma LaunchVxRange(p: real, q: real)
    requires 0.0 <= p <= q
    ensures 2.5 <= BaseLaunchVx(p) <= BaseLaunchVx(q) <= 17.5
  {
  }

  /** The worked launch: power 75 (ratio 0.75) gives a horizontal speed of exactly
      (50 + 150) / 20 = 10. */
  lemma LaunchAtSeventyFive(g: Game, now: int, sinPi: real -> real)
    requires g.isCharging && !g.character.isJumping && g.power == 75.0 && g.attached.None?
    ensures Jump(g, now, sinPi).character.vx == 10.0
    ensures Jump(g, now, sinPi).character.vy == -sinPi(0.75) * 15.0
  {
  }
}

=== FILE: logger.dfy ===
/** The in-memory event log: a bounded list of timestamped events tagged with a
    session id that is minted on first use. */
module Logger {
  import opened Common

  const MaxLogs: nat := 1000

  datatype LogEntry<E> = LogEntry(timestamp: int, eventType: string, eventData: E, sessionId: string)

  datatype Log<E> = Log(logs: seq<LogEntry<E>>, sessionId: Option<string>)

  /** `getSessionId`: the existing id, or `minted` (standing for the random id the
      source mints) the first time. */
  function SessionId<E>(lg: Log<E>, minted: string): (r: (Log<E>, string))
    ensures lg.sessionId.Some? ==> r == (lg, lg.sessionId.value)
    ensures lg.sessionId.None? ==> r == (lg.(sessionId := Some(minted)), minted)
  {
    if lg.sessionId.Some? then (lg, lg.sessionId.value)
    else (lg.(sessionId := Some(minted)), minted)
  }

  /** `logGameEvent`: append, then drop the oldest entry when over the cap. */
  function LogEvent<E>(lg: Log<E>, eventType: string, data: E, now: int, minted: string): (r: Log<E>)
    ensures r.sessionId.Some?
    ensures lg.sessionId.Some? ==> r.sessionId == lg.sessionId
    ensures |r.logs| > 0 && r.logs[|r.logs| - 1] == LogEntry(now, eventType, data, r.sessionId.value)
    ensures |lg.logs| < MaxLogs ==> r.logs == lg.logs + [r.logs[|r.logs| - 1]]
    ensures |lg.logs| == MaxLogs ==> r.logs == lg.logs[1..] + [r.logs[|r.logs| - 1]]
    ensures |lg.logs| <= MaxLogs ==> |r.logs| <= MaxLogs
  {
    var (lg1, id) := SessionId(lg, minted);
    var logs := lg.logs + [LogEntry(now, eventType, data, id)];
    lg1.(logs := if |logs| > MaxLogs then logs[1..] else logs)
  }

  /** Every entry of a log carries the session id the log was started with. */
  ghost predicate OneSession<E>(lg: Log<E>) {
    forall i :: 0 <= i < |lg.logs| ==> lg.sessionId == Some(lg.logs[i].sessionId)
  }

  /** Logging keeps every entry of a log in one session. */
  lemma LogEventKeepsSession<E>(lg: Log<E>, eventType: string, data: E, now: int, minted: string)
    requires OneSession(lg) && (lg.sessionId.None? ==> lg.logs == [])
    ensures OneSession(LogEvent(lg, eventType, data, now, minted))
  {
  }

  /** `getRecentLogs` as written: `slice(-count)`. */
  function RecentLogsAsWritten<E>(lg: Log<E>, count: int): (r: seq<LogEntry<E>>)
    ensures 0 < count ==> r == lg.logs[|lg.logs| - MinInt(count, |lg.logs|)..]
    ensures count <= 0 ==> r == lg.logs[MinInt(-count, |lg.logs|)..]
  {
    JsSliceFrom(lg.logs, -count)
  }

  /** Asking for no entries returns the whole log, because `-0` is `0`. */
  lemma RecentZeroReturnsEverything<E>(lg: Log<E>)
    ensures RecentLogsAsWritten(lg, 0) == lg.logs
  {
  }

  /** The last `count` entries, none for a count of zero or less. */
  function RecentLogs<E>(lg: Log<E>, count: int): (r: seq<LogEntry<E>>)
    ensures |r| == MinInt(MaxInt(count, 0), |lg.logs|)
    ensures lg.logs == lg.logs[..|lg.logs| - |r|] + r
  {
    var n := MinInt(MaxInt(count, 0), |lg.logs|);
    lg.logs[|lg.logs| - n..]
  }

  /** The corrected reading agrees with the source whenever the count is positive. */
  lemma RecentLogsAgreeOnPositive<E>(lg: Log<E>, count: int)
    requires count > 0
    ensures RecentLogs(lg, count) == RecentLogsAsWritten(lg, count)
  {
  }
}

=== FILE: physics.dfy ===
/** The integration step run once per frame while the character is airborne. */
module Physics {
  import opened Common
  import opened Entities
  import opened Failure

  /** Height above which (smaller y) a motionless airborne character is nudged downwards. */
  const DegenerateGuardY: real := 400.0
  /** The small downward speed the degenerate-velocity guard applies. */
  const NudgeSpeed: real := 0.1

  /** The character after one explicit Euler step: position first, then gravity. */
  function Integrate(c: Character, gameSpeed: real): (r: Character)
    ensures r.x == c.x + c.vx * gameSpeed && r.y == c.y + c.vy && r.vy == c.vy + Gravity
    ensures r == c.(x := r.x, y := r.y, vy := r.vy)
  {
    c.(x := c.x + c.vx * gameSpeed, y := c.y + c.vy, vy := c.vy + Gravity)
  }

  /** Appends a sample to the flight record unless it already holds 50. */
  function Record(t: seq<Sample>, s: Sample): (r: seq<Sample>)
    ensures |t| < TrajectoryCap ==> r == t + [s]
    ensures |t| >= TrajectoryCap ==> r == t
    ensures |r| <= MaxInt(|t|, TrajectoryCap)
  {
    if |t| < TrajectoryCap then t + [s] else t
  }

  /** A state the guard treats as stuck: no velocity while above y = 400. */
  predicate Degenerate(c: Character) {
    c.vx == 0.0 && c.vy == 0.0 && c.y < DegenerateGuardY
  }

  /** `updatePhysics`: integrate, record, run the failure detector, then apply the
      degenerate-velocity guard. */
  function UpdatePhysics(g: Game, screen: Viewport, now: int): (r: Game)
    ensures !g.character.isJumping ==> r == g
    ensures g.character.isJumping ==>
      var c1 := Integrate(g.character, g.gameSpeed);
      // position always advances by exactly one step
      && r.character.x == c1.x && r.character.y == c1.y
      // the buffer grows by at most the one sample taken after moving, never past 50
      && r.jumpData.trajectory ==
           Record(g.jumpData.trajectory, Sample(c1.x, c1.y, c1.vx, c1.vy, now))
      && (|g.jumpData.trajectory| <= TrajectoryCap ==> |r.jumpData.trajectory| <= TrajectoryCap)
      // at most one failure is reported per tick
      && (|r.endings| == |g.endings| || |r.endings| == |g.endings| + 1)
      // the degenerate state never survives the step
      && !Degenerate(r.character)
    ensures r.score == g.score && r.combo == g.combo && r.maxCombo == g.maxCombo && r.platforms == g.platforms
  {
    if !g.character.isJumping then g
    else
      var c1 := Integrate(g.character, g.gameSpeed);
      var g1 := g.(character := c1,
        jumpData := g.jumpData.(trajectory :=
          Record(g.jumpData.trajectory, Sample(c1.x, c1.y, c1.vx, c1.vy, now))));
      var g2 := ApplyFailure(g1, screen, now);
      if Degenerate(g2.character) then g2.(character := g2.character.(vy := NudgeSpeed))
      else g2
  }

  /** When no guard fires, the vertical speed after the step is exactly gravity
      added to it, except that a stuck character is nudged to 0.1. */
  lemma FreeFlightVelocity(g: Game, screen: Viewport, now: int)
    requires g.character.isJumping
    requires CheckFailure(Integrate(g.character, g.gameSpeed), screen, g.fallStart, now).reason.None?
    ensures var c1 := Integrate(g.character, g.gameSpeed);
      UpdatePhysics(g, screen, now).character ==
        (if Degenerate(c1) then c1.(vy := NudgeSpeed) else c1)
    ensures UpdatePhysics(g, screen, now).isPlaying == g.isPlaying
  {
  }

  /** Escaping the horizontal band stops the flight; the guard that follows still
      nudges a character above y = 400 to a downward speed of 0.1. */
  lemma HorizontalEscapeStopsFlight(g: Game, screen: Viewport, now: int)
    requires g.character.isJumping
    requires CheckFailure(Integrate(g.character, g.gameSpeed), screen, g.fallStart, now).reason
      == Some(OutOfHorizontalBand)
    ensures var r := UpdatePhysics(g, screen, now);
      && !r.character.isJumping && !r.isPlaying && r.character.vx == 0.0
      && r.character.vy == (if r.character.y < DegenerateGuardY then NudgeSpeed else 0.0)
      && r.endings == g.endings + [OutOfHorizontalBand]
  {
  }
}

=== FILE: prediction.dfy ===
/** The trajectory preview: a closed-form ballistic landing point for a given
    charge, the platform it would reach, and a graded quality for that landing. */
module Prediction {
  import opened Common
  import opened Entities

  const BaseVelocity: real := 8.0
  const MaxVelocity: real := 20.0
  /** Height band around a platform's top edge (from 10 above to 20 below) in
      which a predicted landing counts as reaching it. */
  const WindowAbove: real := 10.0
  const WindowBelow: real := 20.0

  /** `predictLandingPosition`'s result. `cosQ` and `sinQ` stand for
      `Math.cos(-π/4)` and `Math.sin(-π/4)`. */
  datatype Flight = Flight(x: real, y: real, time: real, vx: real, vy: real, distance: real)

  /** Launch speed for a charge: 8 at no charge, 20 at power 100, uncapped above. */
  function LaunchSpeed(power: real): real {
    BaseVelocity + (MaxVelocity - BaseVelocity) * (power / 100.0)
  }

  /** The ballistic landing point from the character's horizontal centre and
      top edge: the flight lasts until the vertical displacement is zero again. */
  function PredictLanding(c: Character, power: real, cosQ: real, sinQ: real): (f: Flight)
    ensures f.vx == LaunchSpeed(power) * cosQ && f.vy == LaunchSpeed(power) * sinQ
    ensures f.time * Gravity == -2.0 * f.vy
    // the flight ends at the height it started from
    ensures f.y == c.y
    ensures f.x == c.Center() + f.distance && f.distance == f.vx * f.time
  {
    var v := LaunchSpeed(power);
    var vx := v * cosQ;
    var vy := v * sinQ;
    var t := (-2.0 * vy) / Gravity;
    var landingX := c.x + c.width / 2.0 + vx * t;
    var landingY := c.y + vy * t + 0.5 * Gravity * t * t;
    assert vy * t + 0.5 * Gravity * t * t == 0.0 by {
      assert t == -2.5 * vy;
    }
    Flight(landingX, landingY, t, vx, vy, vx * t)
  }

  /** For an upward launch angle, a larger charge never carries the character a
      shorter distance. */
  lemma DistanceGrowsWithPower(c: Character, p: real, q: real, cosQ: real, sinQ: real)
    requires 0.0 <= p <= q && cosQ > 0.0 && sinQ < 0.0
    ensures 0.0 < PredictLanding(c, p, cosQ, sinQ).distance <= PredictLanding(c, q, cosQ, sinQ).distance
  {
    var vp, vq := LaunchSpeed(p), LaunchSpeed(q);
    assert 8.0 <= vp <= vq;
    var k := -2.5 * cosQ * sinQ;
    assert k > 0.0 by {
      assert cosQ * sinQ < 0.0;
    }
    assert PredictLanding(c, p, cosQ, sinQ).distance == k * (vp * vp) by {
      assert PredictLanding(c, p, cosQ, sinQ).time == -2.5 * (vp * sinQ);
    }
    assert PredictLanding(c, q, cosQ, sinQ).distance == k * (vq * vq) by {
      assert PredictLanding(c, q, cosQ, sinQ).time == -2.5 * (vq * sinQ);
    }
    assert vp * vp <= vq * vq by {
      assert vp * vp <= vp * vq;
      assert vp * vq <= vq * vq;
    }
    assert k * (vp * vp) <= k * (vq * vq);
    assert k * (vp * vp) > 0.0;
  }

  datatype Grade = Perfect | Excellent | Good | Ok | Miss

  /** `calculateLandingQuality`'s result. */
  datatype Quality = Quality(grade: Grade, score: real, accuracy: real)

  function GradeOf(accuracy: real): Grade {
    if accuracy >= 0.9 then Perfect
    else if accuracy >= 0.7 then Excellent
    else if accuracy >= 0.5 then Good
    else if accuracy >= 0.3 then Ok
    else Miss
  }

  /** The points a grade is worth before the speed penalty. */
  function BaseScore(grade: Grade): real {
    match grade
    case Perfect => 100.0
    case Excellent => 70.0
    case Good => 40.0
    case Ok => 20.0
    case Miss => 0.0
  }

  /** `calculateLandingQuality`: the grade from the accuracy bands, minus twice the
      vertical speed, never below 0. */
  function LandingQuality(accuracy: real, vy: real): (q: Quality)
    ensures q.accuracy == accuracy && q.grade == GradeOf(accuracy)
    ensures 0.0 <= q.score <= BaseScore(q.grade) <= 100.0
    ensures q.score == Max(0.0, BaseScore(q.grade) - 2.0 * Abs(vy))
    ensures accuracy < 0.3 ==> q.grade == Miss && q.score == 0.0
    ensures vy == 0.0 ==> q.score == BaseScore(q.grade)
  {
    var grade := GradeOf(accuracy);
    Quality(grade, Max(0.0, BaseScore(grade) - 2.0 * Abs(vy)), accuracy)
  }

  /** A more accurate landing at the same speed is never scored lower. */
  lemma QualityMonotone(a: real, b: real, vy: real)
    requires a <= b
    ensures LandingQuality(a, vy).score <= LandingQuality(b, vy).score
    ensures BaseScore(GradeOf(a)) <= BaseScore(GradeOf(b))
  {
  }

  /** A predicted landing lies in a platform's band. */
  predicate InWindow(f: Flight, p: Platform) {
    f.y >= p.y - WindowAbove && f.y <= p.y + WindowBelow
  }

  /** Horizontal distance from the landing point to a platform's centre. */
  function CentreGap(f: Flight, p: Platform): real {
    Abs(f.x - p.Center())
  }

  /** `predictPlatformCollision`'s result. */
  datatype Forecast =
    | NoHit(landing: Flight)
    | Hit(landing: Flight, target: nat, accuracy: real, quality: Quality)

  /** `1 - |gap| / (width / 2)`, the unclamped accuracy used for grading. */
  function RawAccuracy(f: Flight, p: Platform): real
    requires p.width > 0.0
  {
    1.0 - CentreGap(f, p) / (p.width / 2.0)
  }

  /** `predictPlatformCollision`: among the platforms whose band holds the
      landing point, the one with the nearest centre (the first of equals). */
  method PredictCollision(c: Character, ps: seq<Platform>, power: real, cosQ: real, sinQ: real)
    returns (r: Forecast)
    requires forall i :: 0 <= i < |ps| ==> ps[i].width > 0.0
    ensures r.landing == PredictLanding(c, power, cosQ, sinQ)
    ensures r.NoHit? <==> forall j :: 0 <= j < |ps| ==> !InWindow(r.landing, ps[j])
    ensures r.Hit? ==>
      && r.target < |ps| && InWindow(r.landing, ps[r.target])
      && (forall j :: 0 <= j < |ps| && InWindow(r.landing, ps[j]) ==>
            CentreGap(r.landing, ps[r.target]) <= CentreGap(r.landing, ps[j]))
      && (forall j :: 0 <= j < r.target && InWindow(r.landing, ps[j]) ==>
            CentreGap(r.landing, ps[r.target]) < CentreGap(r.landing, ps[j]))
      && r.accuracy == Max(0.0, RawAccuracy(r.landing, ps[r.target]))
      && 0.0 <= r.accuracy <= 1.0
      // the quality is graded on the unclamped accuracy and the launch's vertical speed
      && r.quality == LandingQuality(RawAccuracy(r.landing, ps[r.target]), r.landing.vy)
  {
    var f := PredictLanding(c, power, cosQ, sinQ);
    var best: Option<nat> := None;
    var i := 0;
    while i < |ps|
      invariant 0 <= i <= |ps|
      invariant best.None? <==> forall j :: 0 <= j < i ==> !InWindow(f, ps[j])
      invariant best.Some? ==> best.value < i && InWindow(f, ps[best.value])
      invariant best.Some? ==> forall j :: 0 <= j < i && InWindow(f, ps[j]) ==>
        CentreGap(f, ps[best.value]) <= CentreGap(f, ps[j])
      invariant best.Some? ==> forall j :: 0 <= j < best.value && InWindow(f, ps[j]) ==>
        CentreGap(f, ps[best.value]) < CentreGap(f, ps[j])
    {
      if InWindow(f, ps[i]) && (best.None? || CentreGap(f, ps[i]) < CentreGap(f, ps[best.value])) {
        best := Some(i);
      }
      i := i + 1;
    }
    if best.None? {
      return NoHit(f);
    }
    var raw := RawAccuracy(f, ps[best.value]);
    assert raw <= 1.0 by {
      assert CentreGap(f, ps[best.value]) / (ps[best.value].width / 2.0) >= 0.0;
    }
    r := Hit(f, best.value, Max(0.0, raw), LandingQuality(raw, f.vy));
  }

  /** The band is measured from the character's top edge, so a platform level
      with the one the character stands on (its top 40 below the character's top)
      is never forecast as a hit. */
  lemma LevelPlatformNeverForecast(c: Character, p: Platform, power: real, cosQ: real, sinQ: real)
    requires c.height == CharacterSize && p.y == c.Bottom()
    ensures !InWindow(PredictLanding(c, power, cosQ, sinQ), p)
  {
  }
}

=== FILE: quality.dfy ===
/** The code-quality scoring of the static analyser: issues weighted by
    severity, per-category scores, an overall score, a level, issues grouped by
    severity, and the recommendations derived from them. */
module Quality {
  import opened Common

  /** Severity and category are free-form strings; only some are recognised. */
  datatype Issue = Issue(severity: string, category: string, message: string)

  /** The five categories that carry a score. */
  const Categories: seq<string> := ["structure", "bug", "security", "performance", "maintainability"]

  /** high 3, medium 2, low 1; any other severity counts 1. */
  function Weight(severity: string): (w: nat)
    ensures 1 <= w <= 3
    ensures w == 3 <==> severity == "high"
    ensures w == 2 <==> severity == "medium"
  {
    if severity == "high" then 3 else if severity == "medium" then 2 else 1
  }

  /** The sum of all weights. */
  function TotalWeight(issues: seq<Issue>): nat {
    if |issues| == 0 then 0 else TotalWeight(issues[..|issues| - 1]) + Weight(issues[|issues| - 1].severity)
  }

  /** The sum of the weights of the issues filed under `category`. */
  function CategoryWeight(issues: seq<Issue>, category: string): nat {
    if |issues| == 0 then 0
    else
      var last := issues[|issues| - 1];
      CategoryWeight(issues[..|issues| - 1], category) + (if last.category == category then Weight(last.severity) else 0)
  }

  /** Every issue weighs between 1 and 3. */
  lemma {:induction false} TotalWeightBounds(issues: seq<Issue>)
    ensures |issues| <= TotalWeight(issues) <= 3 * |issues|
  {
    if |issues| > 0 {
      TotalWeightBounds(issues[..|issues| - 1]);
    }
  }

  /** No issue in a category means no weight against it, and the other way round. */
  lemma {:induction false} CategoryWeightZero(issues: seq<Issue>, category: string)
    ensures CategoryWeight(issues, category) == 0 <==> forall i :: 0 <= i < |issues| ==> issues[i].category != category
  {
    if |issues| > 0 {
      var init := issues[..|issues| - 1];
      CategoryWeightZero(init, category);
      assert forall i :: 0 <= i < |init| ==> init[i] == issues[i];
    }
  }

  /** One category's share of the weight never exceeds the total. */
  lemma {:induction false} CategoryWeightBounded(issues: seq<Issue>, category: string)
    ensures CategoryWeight(issues, category) <= TotalWeight(issues)
  {
    if |issues| > 0 {
      CategoryWeightBounded(issues[..|issues| - 1], category);
    }
  }

  /** A category's score: 100 less 5 per unit of weight, clamped to [0, 100]. */
  function CategoryScore(issues: seq<Issue>, category: string): (s: int)
    ensures 0 <= s <= 100
    ensures s == 100 <==> CategoryWeight(issues, category) == 0
    ensures s == 0 <==> CategoryWeight(issues, category) >= 20
    ensures 0 < s ==> s == 100 - 5 * CategoryWeight(issues, category)
  {
    MaxInt(0, MinInt(100, 100 - 5 * CategoryWeight(issues, category)))
  }

  /** The four reported scores; reliability is the `bug` category's. */
  datatype CodeQuality = CodeQuality(maintainability: int, reliability: int, performance: int, security: int)

  /** `categories` are the four reported scores, `categoryScores` all five. */
  datatype QualityScore = QualityScore(overall: int, categories: CodeQuality, categoryScores: map<string, int>)

  /** `calculateQualityScore`. */
  function CalculateQualityScore(issues: seq<Issue>): (q: QualityScore)
    ensures 0 <= q.overall <= 100
    ensures q.overall == MaxInt(0, 100 - 2 * TotalWeight(issues))
    ensures q.categories == CodeQuality(CategoryScore(issues, "maintainability"), CategoryScore(issues, "bug"),
                                        CategoryScore(issues, "performance"), CategoryScore(issues, "security"))
    ensures q.categoryScores.Keys == set c | c in Categories
    ensures forall c :: c in q.categoryScores ==> 0 <= q.categoryScores[c] <= 100
  {
    QualityScore(
      MaxInt(0, 100 - 2 * TotalWeight(issues)),
      CodeQuality(CategoryScore(issues, "maintainability"), CategoryScore(issues, "bug"),
                  CategoryScore(issues, "performance"), CategoryScore(issues, "security")),
      map c | c in Categories :: CategoryScore(issues, c))
  }

  /** A perfect overall score means no issues at all, whatever their severity. */
  lemma PerfectMeansNoIssues(issues: seq<Issue>)
    ensures CalculateQualityScore(issues).overall == 100 <==> |issues| == 0
  {
    TotalWeightBounds(issues);
  }

  /** Reporting one more issue never raises the overall score. */
  lemma MoreIssuesNeverHelp(issues: seq<Issue>, extra: Issue)
    ensures CalculateQualityScore(issues + [extra]).overall <= CalculateQualityScore(issues).overall
  {
    assert (issues + [extra])[..|issues|] == issues;
  }

  /** An issue in a category without a score, such as `analysis`, moves no
      category score. */
  lemma UnknownCategoryIgnored(issues: seq<Issue>, extra: Issue, category: string)
    requires extra.category != category
    ensures CategoryScore(issues + [extra], category) == CategoryScore(issues, category)
  {
    assert (issues + [extra])[..|issues|] == issues;
  }

  datatype Level = Excellent | Good | Fair | NeedsWork | Poor

  function LevelRank(l: Level): nat {
    match l
    case Poor => 0
    case NeedsWork => 1
    case Fair => 2
    case Good => 3
    case Excellent => 4
  }

  /** `getQualityLevel`: bands at 90, 80, 70 and 60. */
  function QualityLevel(score: int): (l: Level)
    ensures l == Excellent <==> score >= 90
    ensures l == Good <==> 80 <= score < 90
    ensures l == Fair <==> 70 <= score < 80
    ensures l == NeedsWork <==> 60 <= score < 70
    ensures l == Poor <==> score < 60
  {
    if score >= 90 then Excellent
    else if score >= 80 then Good
    else if score >= 70 then Fair
    else if score >= 60 then NeedsWork
    else Poor
  }

  /** A higher score never gets a lower level. */
  lemma LevelMonotone(a: int, b: int)
    requires a <= b
    ensures LevelRank(QualityLevel(a)) <= LevelRank(QualityLevel(b))
  {
  }

  /** The issues of one severity, in their original order. */
  function OfSeverity(issues: seq<Issue>, severity: string): (r: seq<Issue>)
    ensures |r| <= |issues|
  {
    if |issues| == 0 then []
    else
      var init := OfSeverity(issues[..|issues| - 1], severity);
      var last := issues[|issues| - 1];
      if last.severity == severity then init + [last] else init
  }

  /** The issues of one severity are exactly the reported issues of that severity. */
  lemma {:induction false} OfSeverityMembers(issues: seq<Issue>, severity: string)
    ensures var r := OfSeverity(issues, severity);
      && (forall i :: 0 <= i < |r| ==> r[i].severity == severity)
      && (forall x :: x in r <==> x in issues && x.severity == severity)
  {
    if |issues| > 0 {
      var init := issues[..|issues| - 1];
      var last := issues[|issues| - 1];
      OfSeverityMembers(init, severity);
      assert issues == init + [last];
    }
  }

  /** Filtering distributes over concatenation, so the issues of one severity
      keep the order they were reported in. */
  lemma {:induction false} OfSeverityConcat(a: seq<Issue>, b: seq<Issue>, severity: string)
    ensures OfSeverity(a + b, severity) == OfSeverity(a, severity) + OfSeverity(b, severity)
  {
    if |b| == 0 {
      assert a + b == a;
    } else {
      var init := b[..|b| - 1];
      var last := b[|b| - 1];
      OfSeverityConcat(a, init, severity);
      assert (a + b)[..|a + b| - 1] == a + init;
      assert (a + b)[|a + b| - 1] == last;
      var keep := if last.severity == severity then [last] else [];
      assert OfSeverity(b, severity) == OfSeverity(init, severity) + keep;
      assert OfSeverity(a + b, severity) == OfSeverity(a + init, severity) + keep;
    }
  }

  datatype Grouped = Grouped(high: seq<Issue>, medium: seq<Issue>, low: seq<Issue>)

  /** `groupIssuesBySeverity`: issues of any other severity are dropped. */
  function GroupBySeverity(issues: seq<Issue>): (g: Grouped)
    ensures g == Grouped(OfSeverity(issues, "high"), OfSeverity(issues, "medium"), OfSeverity(issues, "low"))
    ensures forall x :: x in issues ==> (x in g.high || x in g.medium || x in g.low <==> x.severity in ["high", "medium", "low"])
  {
    OfSeverityMembers(issues, "high");
    OfSeverityMembers(issues, "medium");
    OfSeverityMembers(issues, "low");
    Grouped(OfSeverity(issues, "high"), OfSeverity(issues, "medium"), OfSeverity(issues, "low"))
  }

  /** The three groups together are exactly as long as the input when every
      issue has a recognised severity. */
  lemma {:induction false} GroupsPartition(issues: seq<Issue>)
    requires forall i :: 0 <= i < |issues| ==> issues[i].severity in ["high", "medium", "low"]
    ensures var g := GroupBySeverity(issues); |g.high| + |g.medium| + |g.low| == |issues|
  {
    if |issues| > 0 {
      GroupsPartition(issues[..|issues| - 1]);
    }
  }

  /** One recommendation; `FixDefects` carries the number of high issues. */
  datatype Recommendation = FixDefects(count: nat) | HardenSecurity | OptimisePerformance | AddUnitTests | CompleteDocs

  /** `generateRecommendations`, using the scores computed from the same issues. */
  function Recommendations(issues: seq<Issue>): (r: seq<Recommendation>)
    ensures |r| >= 2 && r[|r| - 2..] == [AddUnitTests, CompleteDocs]
    ensures (exists n :: FixDefects(n) in r) <==> |OfSeverity(issues, "high")| > 0
    ensures |OfSeverity(issues, "high")| > 0 ==> r[0] == FixDefects(|OfSeverity(issues, "high")|)
    ensures HardenSecurity in r <==> CategoryScore(issues, "security") < 80
    ensures OptimisePerformance in r <==> CategoryScore(issues, "performance") < 80
  {
    Assemble(|OfSeverity(issues, "high")|, CategoryScore(issues, "security") < 80, CategoryScore(issues, "performance") < 80)
  }

  /** The recommendation list: defects first when there are high issues, then
      security and performance when asked for, then the two that always appear. */
  function Assemble(high: nat, harden: bool, optimise: bool): (r: seq<Recommendation>)
    ensures |r| >= 2 && r[|r| - 2..] == [AddUnitTests, CompleteDocs]
    ensures (exists n :: FixDefects(n) in r) <==> high > 0
    ensures high > 0 ==> r[0] == FixDefects(high)
    ensures HardenSecurity in r <==> harden
    ensures OptimisePerformance in r <==> optimise
    ensures var k := if high > 0 then 1 else 0;
      && |r| == k + (if harden then 1 else 0) + (if optimise then 1 else 0) + 2
      && (harden ==> r[k] == HardenSecurity)
      && (optimise ==> r[k + (if harden then 1 else 0)] == OptimisePerformance)
  {
    var fix := if high > 0 then [FixDefects(high)] else [];
    var h := if harden then [HardenSecurity] else [];
    var o := if optimise then [OptimisePerformance] else [];
    fix + h + o + [AddUnitTests, CompleteDocs]
  }

  /** Five units of weight in security, say five low issues, are enough to ask for hardening. */
  lemma SecurityThreshold(issues: seq<Issue>)
    ensures HardenSecurity in Recommendations(issues) <==> CategoryWeight(issues, "security") > 4
  {
  }
}

=== FILE: ranking.dfy ===
/** The leaderboard: a list of named best scores kept sorted by score, highest
    first, and cut to 50 entries. Two writers share it: the game's own merge,
    which keeps one entry per name, and the scoring system's append. */
module Ranking {
  import opened Common

  const RankingSize: nat := 50
  /** The name used when no player name is stored (an empty name counts as none). */
  const AnonymousName: string := "匿名玩家"

  /** One leaderboard row; `date` stands for the ISO timestamp of the score. */
  datatype Entry = Entry(name: string, score: int, date: int)

  /** Non-increasing by score. */
  ghost predicate Sorted(s: seq<Entry>) {
    forall i, j :: 0 <= i < j < |s| ==> s[i].score >= s[j].score
  }

  /** No two rows share a name. */
  ghost predicate DistinctNames(s: seq<Entry>) {
    forall i, j :: 0 <= i < j < |s| ==> s[i].name != s[j].name
  }

  /** Inserting `e` into a list, ahead of the first row it ties with or beats. */
  function Insert(e: Entry, t: seq<Entry>): (r: seq<Entry>)
    ensures |r| == |t| + 1
    ensures multiset(r) == multiset(t) + multiset{e}
  {
    if |t| == 0 || e.score >= t[0].score then [e] + t
    else
      assert t == [t[0]] + t[1..];
      [t[0]] + Insert(e, t[1..])
  }

  /** Inserting into a sorted list keeps it sorted. */
  lemma {:induction false} InsertSorted(e: Entry, t: seq<Entry>)
    requires Sorted(t)
    ensures Sorted(Insert(e, t))
  {
    if |t| == 0 || e.score >= t[0].score {
      var r := [e] + t;
      forall i, j | 0 <= i < j < |r|
        ensures r[i].score >= r[j].score
      {
        assert r[j] == t[j - 1];
        if i > 0 {
          assert r[i] == t[i - 1];
        } else if j > 1 {
          assert t[0].score >= t[j - 1].score;
        }
      }
    } else {
      var rest := Insert(e, t[1..]);
      InsertSorted(e, t[1..]);
      var r := [t[0]] + rest;
      forall i, j | 0 <= i < j < |r|
        ensures r[i].score >= r[j].score
      {
        assert r[j] == rest[j - 1];
        if i > 0 {
          assert r[i] == rest[i - 1];
        } else {
          assert rest[j - 1] in multiset(rest);
          if rest[j - 1] != e {
            assert rest[j - 1] in multiset(t[1..]);
            var k :| 0 <= k < |t[1..]| && t[1..][k] == rest[j - 1];
            assert t[k + 1] == rest[j - 1];
          }
        }
      }
    }
  }

  /** `sort((a, b) => b.score - a.score)`: a stable sort, highest score first. */
  function SortDesc(s: seq<Entry>): (r: seq<Entry>)
    ensures |r| == |s|
    ensures multiset(r) == multiset(s)
    ensures Sorted(r)
  {
    if |s| == 0 then []
    else
      assert s == [s[0]] + s[1..];
      var rest := SortDesc(s[1..]);
      InsertSorted(s[0], rest);
      Insert(s[0], rest)
  }

  /** A list that is already sorted is left exactly as it is. */
  lemma {:induction false} SortDescOfSorted(s: seq<Entry>)
    requires Sorted(s)
    ensures SortDesc(s) == s
  {
    if |s| > 0 {
      SortDescOfSorted(s[1..]);
      assert s == [s[0]] + s[1..];
    }
  }

  /** Sorting keeps names distinct. */
  lemma {:induction false} SortKeepsDistinct(s: seq<Entry>)
    requires DistinctNames(s)
    ensures DistinctNames(SortDesc(s))
  {
    if |s| > 0 {
      SortKeepsDistinct(s[1..]);
      var t := SortDesc(s[1..]);
      forall x: Entry | x in multiset(t)
        ensures x.name != s[0].name
      {
        assert x in multiset(s[1..]);
        var k :| 0 <= k < |s[1..]| && s[1..][k] == x;
        assert s[k + 1] == x;
      }
      InsertKeepsDistinct(s[0], t);
    }
  }

  lemma {:induction false} InsertKeepsDistinct(e: Entry, t: seq<Entry>)
    requires DistinctNames(t)
    requires forall x: Entry :: x in multiset(t) ==> x.name != e.name
    ensures DistinctNames(Insert(e, t))
  {
    if |t| == 0 || e.score >= t[0].score {
      ConsDistinct(e, t);
    } else {
      var rest := Insert(e, t[1..]);
      assert t == [t[0]] + t[1..];
      assert DistinctNames(t[1..]) by {
        forall i, j | 0 <= i < j < |t[1..]|
          ensures t[1..][i].name != t[1..][j].name
        {
          assert t[1..][i] == t[i + 1] && t[1..][j] == t[j + 1];
        }
      }
      InsertKeepsDistinct(e, t[1..]);
      forall x: Entry | x in multiset(rest)
        ensures x.name != t[0].name
      {
        if x == e {
          assert t[0] in multiset(t);
        } else {
          assert x in multiset(t[1..]);
          var k :| 0 <= k < |t[1..]| && t[1..][k] == x;
          assert t[k + 1] == x;
        }
      }
      ConsDistinct(t[0], rest);
    }
  }

  /** A row whose name the rest does not carry can head a list of distinct names. */
  lemma ConsDistinct(h: Entry, rest: seq<Entry>)
    requires DistinctNames(rest)
    requires forall x: Entry :: x in multiset(rest) ==> x.name != h.name
    ensures DistinctNames([h] + rest)
  {
    var r := [h] + rest;
    forall i, j | 0 <= i < j < |r|
      ensures r[i].name != r[j].name
    {
      assert r[j] == rest[j - 1];
      if i > 0 {
        assert r[i] == rest[i - 1];
      } else {
        assert rest[j - 1] in multiset(rest);
      }
    }
  }

  /** The first `RankingSize` rows. */
  function Top(s: seq<Entry>): (r: seq<Entry>)
    ensures |r| == MinInt(|s|, RankingSize)
    ensures |s| <= RankingSize ==> r == s
  {
    s[..MinInt(|s|, RankingSize)]
  }

  /** Cutting a sorted list keeps it sorted, keeps only rows it had, drops
      nothing that outscores a kept row, and keeps names distinct. */
  lemma TopKeepsBest(s: seq<Entry>)
    requires Sorted(s)
    ensures Sorted(Top(s))
    ensures multiset(Top(s)) <= multiset(s)
    ensures forall x, y :: x in s && x !in Top(s) && y in Top(s) ==> x.score <= y.score
    ensures DistinctNames(s) ==> DistinctNames(Top(s))
  {
    var k := MinInt(|s|, RankingSize);
    assert s == s[..k] + s[k..];
    forall x, y | x in s && x !in s[..k] && y in s[..k]
      ensures x.score <= y.score
    {
      assert forall t :: 0 <= t < k ==> s[..k][t] == s[t];
      var a :| 0 <= a < |s| && s[a] == x;
      var b :| 0 <= b < k && s[..k][b] == y;
      assert a >= k;
      assert s[b] == y;
    }
  }

  /** `localStorage.getItem('jumpGamePlayerName') || '匿名玩家'`. */
  function PlayerName(stored: Option<string>): (name: string)
    ensures name != ""
    ensures stored.Some? && stored.value != "" ==> name == stored.value
  {
    if stored.Some? && stored.value != "" then stored.value else AnonymousName
  }

  /** Position of the first row carrying `name`. */
  function FindName(s: seq<Entry>, name: string): (k: Option<nat>)
    ensures k.Some? ==>
      k.value < |s| && s[k.value].name == name && forall j :: 0 <= j < k.value ==> s[j].name != name
    ensures k.None? ==> forall j :: 0 <= j < |s| ==> s[j].name != name
  {
    if |s| == 0 then None
    else if s[0].name == name then Some(0)
    else match FindName(s[1..], name)
      case None => None
      case Some(k) => Some(k + 1)
  }

  /** The merge step of `updateRanking`: the player's first row keeps the better
      of the two scores, its date moving only on a strict improvement; a new
      player gets a row at the end. */
  function Merge(s: seq<Entry>, name: string, score: int, now: int): (r: seq<Entry>)
    ensures FindName(s, name).None? ==> r == s + [Entry(name, score, now)]
    ensures FindName(s, name).Some? ==>
      var i := FindName(s, name).value;
      && |r| == |s|
      && (forall j :: 0 <= j < |s| && j != i ==> r[j] == s[j])
      && r[i].name == name
      && r[i].score == MaxInt(s[i].score, score)
      && r[i].date == (if score > s[i].score then now else s[i].date)
  {
    match FindName(s, name)
    case None => s + [Entry(name, score, now)]
    case Some(i) =>
      if score > s[i].score then s[i := s[i].(score := score, date := now)] else s
  }

  /** A merge never introduces a duplicate name. */
  lemma MergeKeepsDistinct(s: seq<Entry>, name: string, score: int, now: int)
    requires DistinctNames(s)
    ensures DistinctNames(Merge(s, name, score, now))
  {
  }

  /** Sorting then cutting keeps the best rows of the original list. */
  lemma SortTopKeepsBest(m: seq<Entry>)
    ensures var r := Top(SortDesc(m));
      && Sorted(r)
      && multiset(r) <= multiset(m)
      && (forall x, y :: x in m && x !in r && y in r ==> x.score <= y.score)
  {
    var sorted := SortDesc(m);
    TopKeepsBest(sorted);
    forall x | x in m
      ensures x in sorted
    {
      assert x in multiset(m);
    }
  }

  /** `updateRanking`: merge, sort, keep the best 50. */
  function UpdateRanking(s: seq<Entry>, stored: Option<string>, score: int, now: int): (r: seq<Entry>)
    ensures var m := Merge(s, PlayerName(stored), score, now);
      && Sorted(r)
      && |r| == MinInt(|m|, RankingSize)
      && multiset(r) <= multiset(m)
      && (forall x, y :: x in m && x !in r && y in r ==> x.score <= y.score)
  {
    SortTopKeepsBest(Merge(s, PlayerName(stored), score, now));
    Top(SortDesc(Merge(s, PlayerName(stored), score, now)))
  }

  /** A leaderboard with one row per name keeps that property through the merge. */
  lemma UpdateKeepsDistinct(s: seq<Entry>, stored: Option<string>, score: int, now: int)
    requires DistinctNames(s)
    ensures DistinctNames(UpdateRanking(s, stored, score, now))
  {
    var m := Merge(s, PlayerName(stored), score, now);
    MergeKeepsDistinct(s, PlayerName(stored), score, now);
    SortKeepsDistinct(m);
    TopKeepsBest(SortDesc(m));
  }

  /** A score that does not beat the player's existing row leaves a sorted
      leaderboard of at most 50 rows exactly as it was. */
  lemma NoImprovementNoChange(s: seq<Entry>, stored: Option<string>, score: int, now: int)
    requires Sorted(s) && |s| <= RankingSize
    requires FindName(s, PlayerName(stored)).Some?
    requires score <= s[FindName(s, PlayerName(stored)).value].score
    ensures UpdateRanking(s, stored, score, now) == s
  {
    SortDescOfSorted(s);
  }

  /** While the board has room, the player's row is on it afterwards with at
      least the new score. */
  lemma BestScoreListed(s: seq<Entry>, stored: Option<string>, score: int, now: int)
    requires |s| < RankingSize
    ensures exists x :: x in UpdateRanking(s, stored, score, now) && x.name == PlayerName(stored) && x.score >= score
  {
    var name := PlayerName(stored);
    var merged := Merge(s, name, score, now);
    var x := match FindName(s, name)
      case None => merged[|s|]
      case Some(i) => merged[i];
    assert x in multiset(merged);
    var sorted := SortDesc(merged);
    assert UpdateRanking(s, stored, score, now) == sorted;
    assert x in multiset(sorted);
  }

  /** `saveToRanking`: the scoring system's writer appends a row without looking
      for an existing one, then sorts and cuts like the merge. */
  function SaveToRanking(s: seq<Entry>, nickname: string, score: int, now: int): (r: seq<Entry>)
    ensures var m := s + [Entry(nickname, score, now)];
      && Sorted(r)
      && |r| == MinInt(|m|, RankingSize)
      && multiset(r) <= multiset(m)
      && (forall x, y :: x in m && x !in r && y in r ==> x.score <= y.score)
  {
    SortTopKeepsBest(s + [Entry(nickname, score, now)]);
    Top(SortDesc(s + [Entry(nickname, score, now)]))
  }

  /** Appending never merges: a player already on the board with an earlier row
      gets a second row whenever there is room. */
  lemma SaveToRankingDuplicates(s: seq<Entry>, nickname: string, score: int, now: int)
    requires |s| < RankingSize
    requires exists x :: x in s && x.name == nickname && x.date != now
    ensures !DistinctNames(SaveToRanking(s, nickname, score, now))
  {
    var e := Entry(nickname, score, now);
    var x :| x in s && x.name == nickname && x.date != now;
    var merged := s + [e];
    var r := SortDesc(merged);
    assert Top(r) == r;
    assert x in multiset(r) && e in multiset(r) by {
      assert x in merged && e in merged;
    }
    TwoRowsOneName(r, x, e);
  }

  /** Two different rows under one name break name uniqueness. */
  lemma TwoRowsOneName(r: seq<Entry>, x: Entry, e: Entry)
    requires x in r && e in r && x != e && x.name == e.name
    ensures !DistinctNames(r)
  {
    var i :| 0 <= i < |r| && r[i] == x;
    var j :| 0 <= j < |r| && r[j] == e;
    if i < j {
      assert r[i].name == r[j].name;
    } else {
      assert r[j].name == r[i].name;
    }
  }

  /** The "beaten" percentage on the game-over screen: the share of rows that do
      not outscore the player, rounded half up; 100 for an empty board. */
  function BeatPercentage(s: seq<Entry>, score: int): (pct: int)
    ensures 0 <= pct <= 100
    ensures |s| == 0 ==> pct == 100
    ensures (forall i :: 0 <= i < |s| ==> s[i].score <= score) ==> pct == 100
    ensures |s| > 0 && CountAbove(s, score) == |s| ==> pct == 0
    ensures |s| > 0 ==> var exact := 100.0 * (|s| - CountAbove(s, score)) as real / |s| as real;
      exact - 0.5 < pct as real <= exact + 0.5
  {
    if |s| == 0 then 100
    else
      var better := CountAbove(s, score);
      var share := better as real / |s| as real;
      MeanInUnit(better as real, |s| as real);
      ComplementShare(better as real, |s| as real);
      ((1.0 - share) * 100.0 + 0.5).Floor
  }

  /** The percentage not covered by a share of `n`. */
  lemma ComplementShare(part: real, n: real)
    requires n > 0.0
    ensures (1.0 - part / n) * 100.0 == 100.0 * (n - part) / n
  {
    var q, w := part / n, 100.0 * (n - part) / n;
    assert q * n == part;
    assert w * n == 100.0 * (n - part);
    CancelFactor(w, (1.0 - q) * 100.0, n);
  }

  /** A non-zero factor cancels from both sides of an equation. */
  lemma CancelFactor(a: real, b: real, n: real)
    requires n != 0.0 && a * n == b * n
    ensures a == b
  {
    assert (a - b) * n == 0.0;
  }

  /** Rows scoring strictly more than `score`. */
  function CountAbove(s: seq<Entry>, score: int): (n: nat)
    ensures n <= |s|
    ensures n == 0 <==> forall i :: 0 <= i < |s| ==> s[i].score <= score
    ensures n == |s| <==> forall i :: 0 <= i < |s| ==> s[i].score > score
  {
    if |s| == 0 then 0
    else
      var init := s[..|s| - 1];
      assert forall i :: 0 <= i < |init| ==> init[i] == s[i];
      CountAbove(init, score) + (if s[|s| - 1].score > score then 1 else 0)
  }

  /** The rows above `score`, by position. */
  ghost function RowsAbove(s: seq<Entry>, score: int): set<nat> {
    set i: nat | i < |s| && s[i].score > score
  }

  /** The rows above `score` are those of the prefix plus, possibly, the last. */
  lemma RowsAboveSplit(s: seq<Entry>, score: int)
    requires |s| > 0
    ensures RowsAbove(s, score) == RowsAbove(s[..|s| - 1], score) + (if s[|s| - 1].score > score then {|s| - 1} else {})
  {
    var init := s[..|s| - 1];
    assert forall i :: 0 <= i < |init| ==> init[i] == s[i];
  }

  /** `CountAbove` counts exactly the rows that outscore `score`. */
  lemma {:induction false} CountAboveCountsRows(s: seq<Entry>, score: int)
    ensures CountAbove(s, score) == |RowsAbove(s, score)|
  {
    if |s| == 0 {
      assert RowsAbove(s, score) == {};
    } else {
      var last := |s| - 1;
      var init := s[..last];
      CountAboveCountsRows(init, score);
      var below := RowsAbove(init, score);
      var top := if s[last].score > score then {last} else {};
      RowsAboveSplit(s, score);
      assert last !in below;
      assert |below + top| == |below| + |top|;
    }
  }
}

=== FILE: storage.dfy ===
/** The dual-backup key-value store: every write goes to a primary and a backup
    store with a timestamp, and every read reconciles the two, preferring the
    newer record and repairing the stores when they disagree. Writes can fail
    independently; the flags passed in say which ones succeed. */
module Storage {
  import opened Common

  /** What is stored under a key: the value and the time it was written. */
  datatype Record = Record(value: string, timestamp: int)

  type Store = map<string, Record>

  datatype Stores = Stores(primary: Store, backup: Store)

  datatype WriteResult = WriteResult(success: bool, primarySuccess: bool, backupSuccess: bool)

  /** The store after a write that may have failed. */
  function Put(s: Store, key: string, r: Record, ok: bool): Store {
    if ok then s[key := r] else s
  }

  /** `setItem`: stamp the value with `now`, write both stores, and report
      success when at least one write went through. */
  function SetItem(s: Stores, key: string, value: string, now: int, primaryOk: bool, backupOk: bool)
    : (r: (Stores, WriteResult))
    ensures r.1.success <==> primaryOk || backupOk
    ensures r.1.primarySuccess == primaryOk && r.1.backupSuccess == backupOk
    ensures primaryOk ==> key in r.0.primary && r.0.primary[key] == Record(value, now)
    ensures backupOk ==> key in r.0.backup && r.0.backup[key] == Record(value, now)
    ensures !primaryOk ==> r.0.primary == s.primary
    ensures !backupOk ==> r.0.backup == s.backup
    ensures forall k :: k != key ==> (k in r.0.primary <==> k in s.primary) && (k in r.0.backup <==> k in s.backup)
    ensures forall k :: k != key && k in s.primary ==> r.0.primary[k] == s.primary[k]
    ensures forall k :: k != key && k in s.backup ==> r.0.backup[k] == s.backup[k]
  {
    var rec := Record(value, now);
    (Stores(Put(s.primary, key, rec, primaryOk), Put(s.backup, key, rec, backupOk)),
     WriteResult(primaryOk || backupOk, primaryOk, backupOk))
  }

  /** `resolveDataConflict`'s answer: the record to trust and whether the stores
      must be rewritten with it. */
  datatype Resolution = Resolution(data: Option<Record>, needsSync: bool)

  /** `resolveDataConflict`. */
  function Resolve(p: Option<Record>, b: Option<Record>): (r: Resolution)
    ensures p.None? && b.None? ==> r == Resolution(None, false)
    ensures p.None? && b.Some? ==> r == Resolution(b, true)
    ensures p.Some? && b.None? ==> r == Resolution(p, true)
    ensures p.Some? && b.Some? ==>
      && r.data == (if p.value.timestamp >= b.value.timestamp then p else b)
      && (r.needsSync <==> p.value.timestamp != b.value.timestamp)
    // whatever is chosen is one of the two, and is not older than the other
    ensures r.data.Some? ==> r.data == p || r.data == b
    ensures r.data.Some? && p.Some? ==> r.data.value.timestamp >= p.value.timestamp
    ensures r.data.Some? && b.Some? ==> r.data.value.timestamp >= b.value.timestamp
    ensures r.needsSync ==> r.data.Some?
  {
    if p.None? && b.None? then Resolution(None, false)
    else if p.None? then Resolution(b, true)
    else if b.None? then Resolution(p, true)
    else if p.value.timestamp >= b.value.timestamp then
      Resolution(p, p.value.timestamp > b.value.timestamp)
    else Resolution(b, true)
  }

  /** A store's record for `key` as the reader sees it; a failed read sees nothing. */
  function Read(s: Store, key: string, ok: bool): (r: Option<Record>)
    ensures r.Some? <==> ok && key in s
    ensures r.Some? ==> r.value == s[key]
  {
    if ok && key in s then Some(s[key]) else None
  }

  /** The flags of one `getItem`: which reads and which repair writes succeed. */
  datatype Access = Access(primaryRead: bool, backupRead: bool, primaryWrite: bool, backupWrite: bool)

  const Healthy: Access := Access(true, true, true, true)

  /** `getItem`: read both, resolve, repair if needed, and return the value. The
      repair writes the primary first; when that write fails the backup is not
      attempted. */
  function GetItem(s: Stores, key: string, a: Access): (r: (Stores, Option<string>))
    ensures var res := Resolve(Read(s.primary, key, a.primaryRead), Read(s.backup, key, a.backupRead));
      && r.1 == (if res.data.Some? then Some(res.data.value.value) else None)
      && (!res.needsSync ==> r.0 == s)
      && (res.needsSync ==> r.0.primary == Put(s.primary, key, res.data.value, a.primaryWrite))
      && (res.needsSync ==> r.0.backup == Put(s.backup, key, res.data.value, a.primaryWrite && a.backupWrite))
  {
    var res := Resolve(Read(s.primary, key, a.primaryRead), Read(s.backup, key, a.backupRead));
    var stores :=
      if res.needsSync then
        Stores(Put(s.primary, key, res.data.value, a.primaryWrite),
               Put(s.backup, key, res.data.value, a.primaryWrite && a.backupWrite))
      else s;
    (stores, if res.data.Some? then Some(res.data.value.value) else None)
  }

  /** Reading back a successful write returns the written value, provided every
      record already stored under the key is older than the write. */
  lemma ReadYourWrite(s: Stores, key: string, value: string, now: int, primaryOk: bool, backupOk: bool, a: Access)
    requires primaryOk || backupOk
    requires a.primaryRead && a.backupRead
    requires key in s.primary ==> s.primary[key].timestamp < now
    requires key in s.backup ==> s.backup[key].timestamp < now
    ensures GetItem(SetItem(s, key, value, now, primaryOk, backupOk).0, key, a).1 == Some(value)
  {
  }

  /** After a healthy read, both stores hold the returned record: a read repairs
      any store that was missing it or held an older one. */
  lemma HealthyReadConverges(s: Stores, key: string)
    requires key in s.primary || key in s.backup
    requires key in s.primary && key in s.backup ==> s.primary[key].timestamp != s.backup[key].timestamp
    ensures var r := GetItem(s, key, Healthy);
      && key in r.0.primary && key in r.0.backup
      && r.0.primary[key] == r.0.backup[key]
      && r.1 == Some(r.0.primary[key].value)
  {
  }

  /** Two records stamped in the same millisecond are never repaired: the primary's
      value is returned and the backup keeps its own, even when they differ. */
  lemma SameTimestampNeverRepaired(s: Stores, key: string, a: Access)
    requires a.primaryRead && a.backupRead
    requires key in s.primary && key in s.backup
    requires s.primary[key].timestamp == s.backup[key].timestamp
    ensures GetItem(s, key, a) == (s, Some(s.primary[key].value))
  {
  }

  /** A write that reached only the backup is shadowed by an older primary record
      stamped in the same millisecond. */
  lemma BackupOnlyWriteCanBeShadowed(s: Stores, key: string, value: string, now: int)
    requires key in s.primary && s.primary[key].timestamp == now
    ensures GetItem(SetItem(s, key, value, now, false, true).0, key, Healthy).1 == Some(s.primary[key].value)
  {
  }
}
